=== FILE: README.md ===
# AI Renamer: a Dafny model of the rename pipeline and the file queue

AI Renamer is an Electron desktop application that renames files after
their content. The renderer keeps a queue of chosen files; for each one the
main process reads the file (or passes the image), asks a language model
served by Ollama, LM Studio or OpenAI for a short name, applies a case style,
avoids a name collision and moves the file, retrying when Windows holds a
lock on it, and records every attempt in a bounded history.

This project models that core in Dafny 4.11 and proves properties of the
model. Everything outside the core is a parameter: the file contents and the
file system's faults, PDF text extraction, the model's reply, the
`change-case` library and the clock.

Modules, one per concern, in dependency order:

- `Results` (`results.dfy`): `Option` and `Result`.
- `JsText` (`js_text.dfy`): the JavaScript string and array operations the
  code relies on: `trim`, `slice` with negative and clamped indices, ASCII
  `toLowerCase`, `join('\n')`, number interpolation and `parseInt`.
- `Paths` (`paths.dfy`): `/`-separated paths, `basename`, `dirname`,
  `extname`.
- `Settings` (`settings.dfy`): the configuration, `getDefaultBaseUrl`,
  `saveSettings` and the form that `updateUI` fills in.
- `History` (`history.dfy`): `addToHistory`, the `get-history` and
  `clear-history` handlers and the renderer's page counter.
- `SafeRename` (`safe_rename.dfy`): `safeRename` over a file system that is
  a map from path to contents, with every primitive's failure scripted; a
  functional reference and a loop that is proved equal to it.
- `Casing` (`casing.dfy`): `changeCase` over an abstract case library.
- `Provider` (`provider.dfy`): `getModelResponse`, the choice of client.
- `FolderScan` (`folder_scan.dfy`): `getFilesRecursively` and
  `select-folder` over a directory tree.
- `RenamePipeline` (`pipeline.dfy`): the `rename-file` handler.
- `Queue` (`queue.dfy`): `addFilesToQueue`, `removeFromQueue`,
  `clearQueue` and `renameAllFiles`, with the handler's replies given.

Paths in the table below are relative to the application's source tree.

## Model

| member | source | states |
|---|---|---|
| `Provider.SelectClient` | gui/gui/main.js:77-87 | a provider name selects a client exactly when it is `ollama`, `openai` or `lm-studio`; any other name fails with "No supported provider found" |
| `Provider.GetModelResponse` | gui/gui/main.js:77-87 | an unknown provider fails with "No supported provider found" and no request; `ollama` gets the generate client's reply and `openai` and `lm-studio` the chat-completions client's |
| `Casing.ChangeCase` | gui/gui/main.js:90-101 | the result is either `kebabCase(text)` or the named export applied to the text; an error can only come from `kebabCase` |
| `Casing.ChangeCaseChoice` | gui/gui/main.js:90-101 | a recognised style that does not throw is applied; an unknown style, or one that throws, yields exactly `kebabCase(text)` |
| `SafeRename.Rename` | gui/gui/main.js:108 | `fs.rename` succeeds exactly when no fault is injected and the source exists, and then moves the contents; a failure changes nothing and carries the injected error, or Node's ENOENT message naming both paths, `rename '<old>' -> '<new>'` |
| `SafeRename.Copy` | gui/gui/main.js:118 | `fs.copyFile` succeeds exactly when no fault is injected and the source exists, and then writes the copy; a failure changes nothing and carries the injected error or the two-path ENOENT message |
| `SafeRename.Unlink` | gui/gui/main.js:122-125 | `fs.unlink` succeeds exactly when no fault is injected and the path exists, and then removes only that path |
| `SafeRename.SafeRename` | gui/gui/main.js:104-138 | the retry loop returns the same error, file system and call sequence as the functional reference `SafeRenameRun` |
| `SafeRename.CopyThenDelete` | gui/gui/main.js:115-131 | the copy-then-delete statements give the same error, file system and calls as the reference fallback `Fallback` |
| `SafeRename.MissingSourceNamesBothPaths` | gui/gui/main.js:106-108 | a missing source is not a lock: the first attempt's ENOENT, naming the source and the destination, is rethrown with nothing changed |
| `SafeRename.OtherErrorIsRethrown` | gui/gui/main.js:133-135 | after locked attempts, a rename error other than EPERM/EBUSY is rethrown at once with the file system untouched and no copy made |
| `SafeRename.SuccessReturnsAtOnce` | gui/gui/main.js:108-109 | after locked attempts, a successful rename ends the loop with the file moved and only rename calls made |
| `SafeRename.AllLockedFallsBack` | gui/gui/main.js:111-132 | when every attempt fails with EPERM/EBUSY, exactly `retries` renames are made and then the copy-and-delete fallback runs with the last rename's error |
| `SafeRename.FirstUnlocked` | gui/gui/main.js:105-111 | either every attempt is locked out or there is a first attempt that is not |
| `SafeRename.RunShape` | gui/gui/main.js:104-138 | a run either makes between 1 and `retries` renames and nothing else, or exactly `retries` locked renames followed by a copy; a copy happens exactly when every rename was locked out |
| `SafeRename.FallbackOutcome` | gui/gui/main.js:115-131 | the fallback succeeds exactly when the copy and the deletion of the original succeed; a failure surfaces the last rename's error, never the copy's or unlink's; a failed deletion of the original is followed by deleting the copy |
| `SafeRename.FallbackCanLoseTarget` | gui/gui/main.js:118-126 | when the target is taken and the original cannot be unlinked, the fallback overwrites the target, then deletes it, and rethrows the lock error: the file that was at the target is lost |
| `SafeRename.SuccessMovesFile` | gui/gui/main.js:104-138 | a resolved run with at least one attempt has moved the file: the old path is gone, the new path holds its contents, nothing else changed |
| `SafeRename.FailureLeavesFilesAlone` | gui/gui/main.js:104-138 | a rejected run into a free target leaves the file system as it was, provided the copy can be deleted when the fallback needs to |
| `SafeRename.NoRetriesDoesNothing` | gui/gui/main.js:105 | with `retries <= 0` the loop never runs: no call, no change, no error |
| `SafeRename.LockedTwiceThenMoved` | gui/gui/main.js:104-138 | two EBUSY renames followed by a free one move the file with three rename calls |
| `SafeRename.StuckOriginalRemovesCopy` | gui/gui/main.js:115-131 | three EBUSY renames, a copy and an EBUSY deletion of the original end with the copy deleted, the EBUSY error and the file system as before |
| `History.AddToHistory` | gui/gui/main.js:186-199 | the stamped entry is first; below the capacity the old list follows whole, at the capacity the oldest entry is dropped |
| `History.AddKeepsBound` | gui/gui/main.js:194-196 | a history of at most 100 entries stays at most 100 entries long |
| `History.NewestFirst` | gui/gui/main.js:186-199 | the reference order of a batch of stamped attempts: newest first |
| `History.AddAllKeepsNewest` | gui/gui/main.js:186-199 | recording any batch into an empty history keeps exactly the newest `min(n, 100)` entries, newest first |
| `History.HundredAndOneKeepsNewestHundred` | gui/gui/main.js:186-199 | 101 attempts into an empty history leave 100 entries and evict the first attempt |
| `History.CeilDiv` | gui/gui/main.js:265 | `Math.ceil(n / limit)` is the least page count whose pages hold all entries |
| `History.GetHistory` | gui/gui/main.js:257-267 | a page reports the total, the page asked for and the least page count covering the history; page `p >= 1` holds the entries from `(p - 1) * limit` on, `limit` of them or as many as remain, none past the end |
| `History.EntryOnItsPage` | gui/gui/main.js:257-267 | entry `i` is item `i % limit` of page `i / limit + 1`, and that page exists |
| `History.PagePastEndIsEmpty` | gui/gui/main.js:257-267 | a page after the last one is empty |
| `History.ClearHistory` | gui/gui/main.js:269-272 | clearing stores the empty list |
| `History.ClearedHistoryShowsNothing` | gui/gui/main.js:269-272 | after clearing, every page is empty and no pages are counted |
| `History.Click` | gui/renderer/renderer.js:134-145 | "prev" goes back exactly one page from above page 1 and stays otherwise; "next" goes on exactly one page below the last known page and stays otherwise |
| `History.ClicksStayInRange` | gui/renderer/renderer.js:134-145 | from a page between 1 and a bound that no click's page count exceeds, any sequence of clicks stays between 1 and that bound |
| `Settings.NormalizeMaxChars` | gui/renderer/renderer.js:512 | `parseInt(input)`, or 25 when that is missing or 0; never 0 |
| `Settings.DefaultBaseUrl` | gui/renderer/renderer.js:495-502 | the well-known addresses of Ollama, LM Studio and OpenAI, and the empty string exactly for any other provider |
| `Settings.SaveSettings` | gui/renderer/renderer.js:504-519 | the mode is `cloud` or `local` by the active button; an empty base URL becomes the provider's default; the cloud models are written only in cloud mode and kept otherwise |
| `Settings.SaveShownSettingsIsIdentity` | gui/renderer/renderer.js:599-622 | showing a configuration with a known mode, a base URL, a non-zero `maxChars` and, in cloud mode, both models, then saving without edits, gives back the same configuration |
| `Settings.SavedBaseUrlEmptyOnlyForUnknownProvider` | gui/renderer/renderer.js:495-509 | the saved base URL is empty exactly when none was entered and the provider is not one of the three known ones |
| `FolderScan.ScanEntry` | gui/gui/main.js:289-305 | every file one entry contributes has a supported extension, does not start with a dot, carries its lower-cased extension and lies under the directory |
| `FolderScan.ScanEntries` | gui/gui/main.js:283-309 | every file listed has a supported extension, does not start with a dot, carries its lower-cased extension and lies under the directory |
| `FolderScan.SelectFolder` | gui/gui/main.js:333-349 | the handler returns only listable files, and nothing when the walk fails |
| `FolderScan.ListedAtSplit` | gui/gui/main.js:288 | a file is listed in a run of entries exactly when it is listed in the first or in the rest |
| `FolderScan.BlockedAtSplit` | gui/gui/main.js:288 | a run of entries is blocked exactly when its first entry or the rest is |
| `FolderScan.ScanEntriesComplete` | gui/gui/main.js:283-309 | the walk fails exactly when it enters an unreadable directory; otherwise the set of files it lists is exactly the set of listable files under directories that are neither hidden nor `node_modules` (once each and in order: see `ScanEntriesOnce` and `ScanEntriesConcat`) |
| `FolderScan.ScanEntryComplete` | gui/gui/main.js:291-305 | one entry fails exactly when it is, or contains, an unreadable directory the walk enters; otherwise the set of files it contributes is exactly the set of its listable files |
| `FolderScan.ScanEntriesConcat` | gui/gui/main.js:287-306 | the walk keeps `readdir`'s order: the files of a listing `a + b` are those of `a` followed by those of `b`, and the first failure met is the one reported |
| `FolderScan.ScanEntriesOfOne` | gui/gui/main.js:288-305 | a one-entry listing yields exactly what that entry contributes |
| `FolderScan.SeparateNames` | gui/gui/main.js:288 | a path lies at or below at most one separator-free name of a directory |
| `FolderScan.ScanEntryOnce` | gui/gui/main.js:288-305 | in a well-named tree one entry contributes no path twice, each at or below the entry's own path |
| `FolderScan.ScanEntriesOnce` | gui/gui/main.js:283-309 | when the names within each directory are different and free of separators, the walk lists no path twice, each below one of the listed entries |
| `FolderScan.SelectFolderListsEachOnce` | gui/gui/main.js:333-349 | on such a directory `select-folder` returns each file once, so the batch handed to the queue has distinct paths |
| `FolderScan.SelectFolderListsExactly` | gui/gui/main.js:333-349 | `select-folder` returns exactly the set of listable files when every entered directory is readable, and nothing otherwise |
| `Paths.LastIndexOf` | gui/gui/main.js:372-374 | the position of the last occurrence of a character, or none when it does not occur |
| `Paths.JoinSplits` | gui/gui/main.js:463 | the directory and base name of a joined path are the parts it was joined from |
| `Paths.Extname` | gui/gui/main.js:373 | the extension is empty or a suffix of the name that starts with a dot |
| `Paths.ExtnameOfDotted` | gui/gui/main.js:373 | a name with a dot after its first character and none in the tail has that dot and the tail as its extension |
| `JsText.TrimEmptyIffBlank` | gui/gui/main.js:404 | trimming gives the empty string exactly when the text is all whitespace |
| `JsText.TrimIsInnerSlice` | gui/gui/main.js:460 | `trim()` returns a contiguous slice of the text with only whitespace before and after it |
| `JsText.TrimHasNoOuterWhitespace` | gui/gui/main.js:460 | what `trim()` returns neither starts nor ends with whitespace |
| `JsText.SliceHead` | gui/gui/main.js:398-401 | `slice(0, n)` keeps the first `n` characters, or the whole text when it is shorter |
| `JsText.SliceTail` | gui/gui/main.js:460 | `slice(-n)` keeps the last `n` characters for positive `n`, the whole text for 0, and drops the first `-n` for negative `n` |
| `JsText.ParseIntOfIntToString` | gui/renderer/renderer.js:512 | `parseInt` of a number written out in decimal gives the number back |
| `RenamePipeline.ClassifyByList` | gui/gui/main.js:377-392 | image and video extensions are disjoint, so a file is an image, a video or text exactly by the lists |
| `RenamePipeline.ReadContent` | gui/gui/main.js:393-402 | a missing file fails; an existing non-PDF file is read successfully and its content is the first 5000 characters of the decoded text, all of it when shorter; a PDF's content is the first 5000 characters of its extracted text, and it fails with the extraction's message exactly when the extraction fails |
| `RenamePipeline.Prepare` | gui/gui/main.js:376-411 | a video is refused with the ffmpeg message; an image goes on with no content and itself as the only image; another file breaks exactly when reading it fails, with that message, is refused as empty when what was read is blank, and otherwise goes on with exactly what was read and no image |
| `RenamePipeline.JoinSection` | gui/gui/main.js:429-435 | appending a section's three lines appends a blank line, the title and the body, or nothing for an empty body |
| `RenamePipeline.LayoutSections` | gui/gui/main.js:414-437 | the prompt is the header lines, then the content section, then the custom-instructions section, each present only when its body is non-empty |
| `RenamePipeline.BuildPrompt` | gui/gui/main.js:414-437 | the prompt is the twelve header lines joined by newlines, then `\n\nContent:\n` and the content when there is content, then `\n\nCustom instructions:\n` and the instructions when there are any |
| `RenamePipeline.ImagePromptLayout` | gui/gui/main.js:414-437 | an image's prompt has no content section: the header lines, then the custom instructions when there are any |
| `RenamePipeline.ResolveBaseUrlAgreesWithSettings` | gui/gui/main.js:440-447 | the handler uses the configured base URL, or the same per-provider default as the settings page |
| `RenamePipeline.NameTextIsTail` | gui/gui/main.js:459-460 | the text given to the case transform is a tail of the trimmed reply, at most `maxChars + 10` characters, all of it when shorter |
| `RenamePipeline.FinalName` | gui/gui/main.js:462-477 | the new path is in the file's directory; a free name is `base + ext`, a taken one `base-<now><ext>`, which differs from the taken path |
| `RenamePipeline.CallFor` | gui/gui/main.js:449-456 | a provider call is made exactly for a known provider, with the request built and the client it selects |
| `RenamePipeline.Ask` | gui/gui/main.js:449-510 | a provider error or a case-library error ends the attempt as not renamed with that error's message, the file system untouched and no rename call; otherwise the file is placed under the transformed name; any outcome logs exactly one history entry |
| `RenamePipeline.Place` | gui/gui/main.js:462-494 | the file is renamed exactly when `safeRename` to the chosen name resolves, which is `base + ext` or `base-<now><ext>` in the same directory, and has then been moved there; otherwise the reply carries `safeRename`'s error message; the file system and the calls are those of `safeRename`; every outcome logs one entry |
| `RenamePipeline.VideoIsRefused` | gui/gui/main.js:385-391 | a video is refused with the ffmpeg message: no provider call, no file-system call, no history entry |
| `RenamePipeline.RenameFile` | gui/gui/main.js:370-512 | every reply names the original file; a refusal changes nothing and logs nothing; a thrown read error is replied and logged once as a failure with its message, with no provider call and no file-system call; a file with content asks the provider selected by name with the built request |
| `RenamePipeline.ReadErrorIsLogged` | gui/gui/main.js:393-510 | a text file that cannot be read ends with the read's error message, one `failed` history entry, no provider call and the file system untouched |
| `RenamePipeline.BlankTextIsRefused` | gui/gui/main.js:404-410 | text whose first 5000 characters are blank is refused the same way |
| `RenamePipeline.OneHistoryEntryPerAttempt` | gui/gui/main.js:482-504 | a refused file logs nothing; any other attempt logs exactly one entry, `success` with the new name or `failed` with `-` and the error |
| `RenamePipeline.ProviderSeesPrompt` | gui/gui/main.js:413-456 | the provider is asked only for images and files with text, with the built prompt, images, key and resolved base URL; an image's prompt has no content section |
| `RenamePipeline.SuccessNaming` | gui/gui/main.js:459-494 | a renamed file gets the case-transformed tail of the reply plus the lower-cased extension, with a timestamp suffix when the name was taken, and was moved there |
| `RenamePipeline.UnknownProviderFails` | gui/gui/main.js:495-510 | an unknown provider fails the attempt with "No supported provider found", logged once, with no provider call and the file untouched |
| `Queue.NewFiles` | gui/renderer/renderer.js:235-237 | a file is kept exactly when its path is not yet queued; when every path is queued nothing is kept |
| `Queue.AddFilesToQueue` | gui/renderer/renderer.js:234-243 | queued entries are untouched; every appended entry is pending, has no new name and a path that was not queued |
| `Queue.AddedExactly` | gui/renderer/renderer.js:234-243 | a file is appended exactly when it is among the incoming files and its path was not queued |
| `Queue.NewFilesOfOne` | gui/renderer/renderer.js:235-237 | a single file is kept exactly when its path is not queued |
| `Queue.NewFilesConcat` | gui/renderer/renderer.js:235-237 | the filter goes file by file in the incoming order: filtering `a + b` is filtering `a`, then `b`, joined |
| `Queue.AddedInOrder` | gui/renderer/renderer.js:234-243 | the entries appended for the batch `a + b` are those appended for `a` followed by those appended for `b` |
| `Queue.AddedOne` | gui/renderer/renderer.js:234-243 | a single file is appended as a pending entry exactly when its path is not queued, and the queue is unchanged otherwise |
| `Queue.AddTwiceIsAddOnce` | gui/renderer/renderer.js:234-243 | adding the same files a second time changes nothing |
| `Queue.NewFilesDistinct` | gui/renderer/renderer.js:235-237 | a batch without duplicate paths stays without them after filtering |
| `Queue.AddKeepsPathsDistinct` | gui/renderer/renderer.js:234-243 | a queue without duplicate paths keeps that property when a batch without duplicate paths is added |
| `Queue.RemoveFromQueue` | gui/renderer/renderer.js:253-255 | `splice(index, 1)`: the entry at the clamped, end-relative index is cut out, and an index past the end removes nothing |
| `Queue.RemoveExactlyOne` | gui/renderer/renderer.js:253-255 | removing an index in range takes out exactly that entry, keeps the others in order and preserves the multiset of the rest |
| `Queue.RemoveKeepsPathsDistinct` | gui/renderer/renderer.js:253-255 | removal keeps the paths distinct |
| `Queue.ClearQueue` | gui/renderer/renderer.js:263-264 | clearing leaves an empty queue |
| `Queue.ClearedQueueRenamesNothing` | gui/renderer/renderer.js:359-364 | renaming a cleared queue sends nothing |
| `Queue.ApplyReply` | gui/renderer/renderer.js:397-410 | a success records the new name and the new path; a failure result or a thrown error sets `error` with its message and keeps path and name |
| `Queue.PendingFrom` | gui/renderer/renderer.js:360 | the snapshot holds exactly the pending entries' indices, in increasing order |
| `Queue.FindIndex` | gui/renderer/renderer.js:382 | the first entry with the path, or -1 exactly when no entry has it |
| `Queue.Step` | gui/renderer/renderer.js:382-413 | each pass sends the snapshot entry's current path, one call per pass, and keeps the queue's length |
| `Queue.Steps` | gui/renderer/renderer.js:381-414 | the loop makes one call per snapshot entry, after the calls made before it |
| `Queue.RenameAll` | gui/renderer/renderer.js:359-414 | the loop computes the same queue and call sequence as the functional reference `RenameAllRun`, and keeps the queue's length |
| `Queue.SendOne` | gui/renderer/renderer.js:382-410 | one pass of the loop body leaves the queue and calls exactly as the reference step `Step` does |
| `Queue.NothingToDo` | gui/renderer/renderer.js:360-373 | with no pending entry, or in local mode with Ollama not running, nothing is sent and the queue is unchanged |
| `Queue.OneCallPerPendingEntry` | gui/renderer/renderer.js:381-414 | otherwise exactly one call is made per entry pending at the start, whatever the replies: a failure does not stop the loop |
| `Queue.StepFindsItsEntry` | gui/renderer/renderer.js:382-410 | with distinct paths and fresh new paths, each pass finds the very entry it took from the snapshot and records its reply there |
| `Queue.RenameAllInOrder` | gui/renderer/renderer.js:359-414 | with distinct paths and fresh new paths, the pending entries' paths are sent in queue order, the n-th reply lands in the n-th pending entry, and non-pending entries keep their state |
| `Queue.DuplicatePathUpdatesEarlierEntry` | gui/renderer/renderer.js:382-385 | when an earlier, failed entry shares a pending entry's path, the reply lands on the earlier entry and the pending one stays pending |

## Left out

- File and network I/O: reading files, `pdf-parse`, the Ollama and OpenAI
  HTTP clients (request bodies, base64 images, the 120-second timeout),
  model discovery (`get-available-models`) and the Ollama liveness probe
  (`check-ollama-status`), whose answer is a parameter of `RenameAll`.
- Reading and writing the configuration and history JSON files, the default
  configuration used when reading fails, and failures of `saveHistory`; the
  history is a value passed in and returned.
- The `change-case` library: each case style is an uninterpreted function
  that may fail. Nothing is claimed about the shape of its output.
- `setTimeout` waits (500 ms and 200 ms in `safeRename`, the 500 ms before
  the final toast) and the real clock: `Date.now()` and the ISO date are
  parameters.
- Concurrency: the check-then-rename race between `fs.access` and
  `safeRename`, and a queue edited while `renameAllFiles` awaits a reply.
- Windows, menus, dialogs, drag-and-drop, toasts, the progress bar, icons,
  the suggestion list and `updateQueueUI`/`updateHistoryUI` rendering;
  `gui/gui/preload.js` is only an IPC bridge.
- Path normalisation by `path.join` (`..`, repeated or trailing separators,
  a base name containing `/`): paths are joined with a single `/`.
- Existence checks see only files: `fs.access` on a directory that has the
  chosen name is not modelled.
- Text is a sequence of Unicode scalar values: UTF-16 code units, which
  `slice` and `length` count in JavaScript, and Unicode lower-casing beyond
  ASCII are not modelled.
- `Settings.NormalizeMaxChars`: `parseInt` is modelled for leading
  whitespace, an optional sign and the longest run of decimal digits; the
  `0x` prefix, with which `parseInt` reads hexadecimal, is read as the digit
  `0` here.
- `History.GetHistory`: requires a positive page size; the handler is only
  called with the renderer's size of 10. With a size of 0 the page would be
  empty and `Math.ceil(n / 0)` would be `NaN` for an empty history and
  `Infinity` for any other.
- `Settings.DefaultBaseUrl`: provider names are looked up as plain strings;
  `getDefaultBaseUrl`'s `defaults[provider]` lookup through the object
  prototype (a provider named `"constructor"` yields a function, not `''`)
  is not modelled.
- `maxChars` is an unbounded integer. In JavaScript it is a double:
  `parseInt` rounds numbers above 2^53, and from 10^21 upward the prompt's
  `${config.maxChars}` prints exponent notation (`1e+21`), which
  `JsText.IntToString` does not produce; the reply's tail length
  `maxChars + 10` rounds in the same range.
- Paths are POSIX paths separated by `/` only. On Windows, where the
  lock-retry of `safeRename` matters, `path.basename`, `path.dirname`,
  `path.extname` and `path.join` also split on `\` and know drive letters;
  neither is modelled.
- `Queue.RenameAllInOrder`: states the full outcome only for a queue with
  distinct paths whose successful replies do not land on another entry's
  path; `Queue.DuplicatePathUpdatesEarlierEntry` shows what happens
  otherwise.
- `SafeRename.FailureLeavesFilesAlone`: assumes the target is free and the
  copy can be deleted; otherwise a failed fallback can leave a copy behind,
  as the code allows. When the target is taken, `copyFile` overwrites it and,
  if the original then cannot be unlinked, the cleanup unlinks the target:
  the file that was there before is lost (`SafeRename.FallbackCanLoseTarget`
  states this final file system).
- `FolderScan.ScanEntriesOnce`: assumes the names within each directory are
  free of separators and pairwise different, as a file system's listing is;
  the order-free reference `ListedAt` fixes the set of files, and the order
  is fixed by `FolderScan.ScanEntriesConcat`.
- Video renaming through ffmpeg does not exist in the application; videos
  are refused, as modelled.

=== FILE: casing.dfy ===
/** `changeCase`: applying a case style of the `change-case` library by
    name. The library's transforms are not modelled; each is a given
    function that returns its output or the error it throws. */
module Casing {
  import opened Results

  type Transform = string -> Result<string>

  /** The library's exports by name (`camelCase`, `snakeCase`, ...) and its
      `kebabCase`, the fallback. */
  datatype CaseLibrary = CaseLibrary(exports: map<string, Transform>, kebabCase: Transform)

  /** `changeCase({text, _case})`: the named transform when the library
      exports one and it does not throw; `kebabCase(text)` otherwise. */
  function ChangeCase(lib: CaseLibrary, text: string, caseName: string): (r: Result<string>)
    ensures r.Err? ==> r == lib.kebabCase(text)
    ensures r.Ok? ==> r == lib.kebabCase(text) || (caseName in lib.exports && r == lib.exports[caseName](text))
  {
    if caseName in lib.exports then
      match lib.exports[caseName](text)
      case Ok(s) => Ok(s)
      case Err(_) => lib.kebabCase(text)
    else
      lib.kebabCase(text)
  }

  /** A recognised style that does not throw is applied; an unrecognised
      style, or one that throws, yields exactly `kebabCase(text)`. */
  lemma ChangeCaseChoice(lib: CaseLibrary, text: string, caseName: string)
    ensures caseName in lib.exports && lib.exports[caseName](text).Ok? ==>
      ChangeCase(lib, text, caseName) == lib.exports[caseName](text)
    ensures !(caseName in lib.exports && lib.exports[caseName](text).Ok?) ==>
      ChangeCase(lib, text, caseName) == lib.kebabCase(text)
  {
  }
}

=== FILE: folder_scan.dfy ===
/** `getFilesRecursively` and the `select-folder` handler: a depth-first
    walk of a directory that skips hidden directories and `node_modules`,
    and lists the files whose lower-cased extension is supported and whose
    name does not start with a dot. A directory is a tree of entries;
    `readable` says whether listing it succeeds. */
module FolderScan {
  import opened Results
  import opened JsText
  import opened Paths

  const SupportedExtensions: seq<string> := [
    ".jpg", ".jpeg", ".png", ".bmp", ".tif", ".tiff",
    ".pdf", ".txt", ".md", ".json",
    ".mp4", ".avi", ".mov", ".mkv", ".webm",
    ".js", ".ts", ".py", ".html", ".css", ".xml", ".yaml", ".yml"
  ]

  /** A directory entry: a sub-directory with its own listing, a regular
      file, or something else (a socket, a link) that is neither. */
  datatype Entry =
    | Directory(name: string, readable: bool, children: seq<Entry>)
    | RegularFile(name: string)
    | OtherEntry(name: string)

  predicate SkippedDirectory(name: string) {
    StartsWith(name, ".") || name == "node_modules"
  }

  function ExtOf(name: string): string {
    ToLower(Extname(name))
  }

  predicate Listable(name: string) {
    ExtOf(name) in SupportedExtensions && !StartsWith(name, ".")
  }

  function ScandirError(dirPath: string): string {
    "EACCES: permission denied, scandir '" + dirPath + "'"
  }

  /** What one entry of `dirPath` contributes, in order. */
  function ScanEntry(dirPath: string, e: Entry): (r: Result<seq<FileRef>>)
    ensures r.Ok? ==> forall f :: f in r.value ==>
      Listable(f.name) && f.ext == ExtOf(f.name) && StartsWith(f.path, dirPath + "/")
    decreases e, 1
  {
    match e
    case Directory(name, readable, children) =>
      if SkippedDirectory(name) then Ok([])
      else if !readable then Err(ScandirError(Join(dirPath, name)))
      else
        var r := ScanEntries(Join(dirPath, name), children);
        assert r.Ok? ==> forall f :: f in r.value ==> StartsWith(f.path, dirPath + "/") by {
          if r.Ok? {
            forall f | f in r.value
              ensures StartsWith(f.path, dirPath + "/")
            {
              UnderSubdirectory(dirPath, name, f.path);
            }
          }
        }
        r
    case RegularFile(name) =>
      if Listable(name) then Ok([FileRef(Join(dirPath, name), name, ExtOf(name))]) else Ok([])
    case OtherEntry(_) => Ok([])
  }

  /** A path under a sub-directory of `dirPath` is under `dirPath`. */
  lemma UnderSubdirectory(dirPath: string, name: string, p: string)
    requires StartsWith(p, Join(dirPath, name) + "/")
    ensures StartsWith(p, dirPath + "/")
  {
    var d := dirPath + "/";
    assert Join(dirPath, name) + "/" == d + (name + "/");
    assert p[..|d|] == (d + (name + "/"))[..|d|];
  }

  /** The files under the listed `entries` of `dirPath`, depth first; the
      first unreadable directory met makes the whole walk fail. */
  function ScanEntries(dirPath: string, entries: seq<Entry>): (r: Result<seq<FileRef>>)
    ensures r.Ok? ==> forall f :: f in r.value ==>
      Listable(f.name) && f.ext == ExtOf(f.name) && StartsWith(f.path, dirPath + "/")
    decreases entries, 2
  {
    if entries == [] then Ok([])
    else
      match ScanEntry(dirPath, entries[0])
      case Err(m) => Err(m)
      case Ok(head) =>
        match ScanEntries(dirPath, entries[1..])
        case Err(m) => Err(m)
        case Ok(rest) => Ok(head + rest)
  }

  /** `getFilesRecursively(dirPath)` for a directory with the given listing. */
  function GetFilesRecursively(dirPath: string, readable: bool, entries: seq<Entry>): Result<seq<FileRef>> {
    if !readable then Err(ScandirError(dirPath)) else ScanEntries(dirPath, entries)
  }

  /** The `select-folder` handler after the dialog: the files found, or none
      when the walk failed. */
  function SelectFolder(dirPath: string, readable: bool, entries: seq<Entry>): (files: seq<FileRef>)
    ensures forall f :: f in files ==> Listable(f.name) && f.ext in SupportedExtensions
    ensures GetFilesRecursively(dirPath, readable, entries).Err? ==> files == []
  {
    match GetFilesRecursively(dirPath, readable, entries)
    case Ok(files) => files
    case Err(_) => []
  }

  /** Where a file is listed, stated without the walk's order: a listable
      regular file of the directory itself, or a file listed in one of its
      sub-directories that is neither hidden nor `node_modules`. */
  ghost predicate ListedIn(dirPath: string, e: Entry, f: FileRef)
    decreases e, 0
  {
    match e
    case Directory(name, _, children) =>
      !SkippedDirectory(name) && ListedAt(Join(dirPath, name), children, f)
    case RegularFile(name) =>
      Listable(name) && f == FileRef(Join(dirPath, name), name, ExtOf(name))
    case OtherEntry(_) => false
  }

  ghost predicate ListedAt(dirPath: string, entries: seq<Entry>, f: FileRef)
    decreases entries, 1
  {
    exists i :: 0 <= i < |entries| && ListedIn(dirPath, entries[i], f)
  }

  /** A directory that the walk enters and cannot list, anywhere below. */
  ghost predicate BlockedIn(dirPath: string, e: Entry)
    decreases e, 0
  {
    e.Directory? && !SkippedDirectory(e.name) &&
      (!e.readable || BlockedAt(Join(dirPath, e.name), e.children))
  }

  ghost predicate BlockedAt(dirPath: string, entries: seq<Entry>)
    decreases entries, 1
  {
    exists i :: 0 <= i < |entries| && BlockedIn(dirPath, entries[i])
  }

  lemma ListedAtSplit(dirPath: string, entries: seq<Entry>, f: FileRef)
    requires entries != []
    ensures ListedAt(dirPath, entries, f) <==>
      ListedIn(dirPath, entries[0], f) || ListedAt(dirPath, entries[1..], f)
  {
    if ListedAt(dirPath, entries, f) && !ListedIn(dirPath, entries[0], f) {
      var i :| 0 <= i < |entries| && ListedIn(dirPath, entries[i], f);
      assert entries[1..][i - 1] == entries[i];
    }
    if ListedAt(dirPath, entries[1..], f) {
      var i :| 0 <= i < |entries[1..]| && ListedIn(dirPath, entries[1..][i], f);
      assert entries[i + 1] == entries[1..][i];
    }
  }

  lemma BlockedAtSplit(dirPath: string, entries: seq<Entry>)
    requires entries != []
    ensures BlockedAt(dirPath, entries) <==>
      BlockedIn(dirPath, entries[0]) || BlockedAt(dirPath, entries[1..])
  {
    if BlockedAt(dirPath, entries) && !BlockedIn(dirPath, entries[0]) {
      var i :| 0 <= i < |entries| && BlockedIn(dirPath, entries[i]);
      assert entries[1..][i - 1] == entries[i];
    }
    if BlockedAt(dirPath, entries[1..]) {
      var i :| 0 <= i < |entries[1..]| && BlockedIn(dirPath, entries[1..][i]);
      assert entries[i + 1] == entries[1..][i];
    }
  }

  /** The walk fails exactly when it meets an unreadable directory it does
      not skip; otherwise it lists exactly the files `ListedAt` describes. */
  lemma {:induction false} ScanEntriesComplete(dirPath: string, entries: seq<Entry>)
    ensures ScanEntries(dirPath, entries).Err? <==> BlockedAt(dirPath, entries)
    ensures ScanEntries(dirPath, entries).Ok? ==>
      forall f :: f in ScanEntries(dirPath, entries).value <==> ListedAt(dirPath, entries, f)
    decreases entries, 1
  {
    if entries != [] {
      ScanEntryComplete(dirPath, entries[0]);
      ScanEntriesComplete(dirPath, entries[1..]);
      BlockedAtSplit(dirPath, entries);
      forall f
        ensures ListedAt(dirPath, entries, f) <==>
          ListedIn(dirPath, entries[0], f) || ListedAt(dirPath, entries[1..], f)
      {
        ListedAtSplit(dirPath, entries, f);
      }
    }
  }

  lemma {:induction false} ScanEntryComplete(dirPath: string, e: Entry)
    ensures ScanEntry(dirPath, e).Err? <==> BlockedIn(dirPath, e)
    ensures ScanEntry(dirPath, e).Ok? ==>
      forall f :: f in ScanEntry(dirPath, e).value <==> ListedIn(dirPath, e, f)
    decreases e, 0
  {
    match e
    case Directory(name, readable, children) =>
      if !SkippedDirectory(name) && readable {
        ScanEntriesComplete(Join(dirPath, name), children);
      }
    case RegularFile(name) =>
    case OtherEntry(_) =>
  }

  /** `select-folder` returns exactly the listable files under visible
      directories when every visible directory can be read, and nothing
      otherwise. */
  lemma SelectFolderListsExactly(dirPath: string, readable: bool, entries: seq<Entry>)
    ensures !readable || BlockedAt(dirPath, entries) ==> SelectFolder(dirPath, readable, entries) == []
    ensures readable && !BlockedAt(dirPath, entries) ==>
      forall f :: f in SelectFolder(dirPath, readable, entries) <==> ListedAt(dirPath, entries, f)
  {
    ScanEntriesComplete(dirPath, entries);
  }

  /** The walk keeps `readdir`'s order: the files of a listing `a + b` are
      those of `a` followed by those of `b`, and the first failure met,
      scanning `a` before `b`, is the one reported. */
  lemma {:induction false} ScanEntriesConcat(dirPath: string, a: seq<Entry>, b: seq<Entry>)
    ensures ScanEntries(dirPath, a + b) ==
      if ScanEntries(dirPath, a).Err? then ScanEntries(dirPath, a)
      else if ScanEntries(dirPath, b).Err? then ScanEntries(dirPath, b)
      else Ok(ScanEntries(dirPath, a).value + ScanEntries(dirPath, b).value)
    decreases |a|
  {
    if a == [] {
      assert a + b == b;
      if ScanEntries(dirPath, b).Ok? {
        assert [] + ScanEntries(dirPath, b).value == ScanEntries(dirPath, b).value;
      }
    } else {
      assert (a + b)[0] == a[0];
      assert (a + b)[1..] == a[1..] + b;
      ScanEntriesConcat(dirPath, a[1..], b);
      var head := ScanEntry(dirPath, a[0]);
      if head.Ok? && ScanEntries(dirPath, a[1..]).Ok? && ScanEntries(dirPath, b).Ok? {
        var ra, rb := ScanEntries(dirPath, a[1..]).value, ScanEntries(dirPath, b).value;
        assert head.value + (ra + rb) == (head.value + ra) + rb;
      }
    }
  }

  /** A one-entry listing contributes exactly what its entry does. */
  lemma ScanEntriesOfOne(dirPath: string, e: Entry)
    ensures ScanEntries(dirPath, [e]) == ScanEntry(dirPath, e)
  {
    assert [e][1..] == [];
    if ScanEntry(dirPath, e).Ok? {
      assert ScanEntry(dirPath, e).value + [] == ScanEntry(dirPath, e).value;
    }
  }

  /** No two files share a path. */
  predicate DistinctFilePaths(files: seq<FileRef>) {
    forall i, j :: 0 <= i < j < |files| ==> files[i].path != files[j].path
  }

  /** What a file system guarantees of a listing: the names of one
      directory contain no separator and are pairwise different, and so,
      recursively, are those of every sub-directory. */
  ghost predicate WellNamedEntry(e: Entry)
    decreases e, 0
  {
    NoSlash(e.name) && (e.Directory? ==> WellNamed(e.children))
  }

  ghost predicate WellNamed(entries: seq<Entry>)
    decreases entries, 1
  {
    && (forall i, j :: 0 <= i < j < |entries| ==> entries[i].name != entries[j].name)
    && (forall i :: 0 <= i < |entries| ==> WellNamedEntry(entries[i]))
  }

  /** `p` is the path of `name` in `dirPath` or lies below it. */
  ghost predicate UnderName(dirPath: string, name: string, p: string) {
    p == Join(dirPath, name) || StartsWith(p, Join(dirPath, name) + "/")
  }

  /** A path at or below `name` in `dirPath` spells `dirPath/name` and, if
      it goes on, continues with a separator. */
  lemma SpellsName(dirPath: string, name: string, p: string)
    requires UnderName(dirPath, name, p)
    ensures var k := |dirPath| + 1 + |name|;
      && k <= |p|
      && (forall i :: |dirPath| + 1 <= i < k ==> p[i] == name[i - |dirPath| - 1])
      && (k < |p| ==> p[k] == '/')
  {
    var d := dirPath + "/";
    assert Join(dirPath, name) == d + name;
    assert p[..|d| + |name|] == d + name;
    forall i | |d| <= i < |d| + |name|
      ensures p[i] == name[i - |d|]
    {
      assert p[i] == p[..|d| + |name|][i] == (d + name)[i];
    }
    if |d| + |name| < |p| {
      assert p[..|d| + |name| + 1] == d + name + "/";
      assert p[|d| + |name|] == p[..|d| + |name| + 1][|d| + |name|];
    }
  }

  /** A path lies below at most one separator-free name of a directory. */
  lemma SeparateNames(dirPath: string, n1: string, n2: string, p: string)
    requires NoSlash(n1) && NoSlash(n2)
    requires UnderName(dirPath, n1, p) && UnderName(dirPath, n2, p)
    ensures n1 == n2
  {
    SpellsName(dirPath, n1, p);
    SpellsName(dirPath, n2, p);
    var d := |dirPath| + 1;
    if |n1| < |n2| {
      assert false;
    } else if |n2| < |n1| {
      assert false;
    } else {
      forall i | 0 <= i < |n1|
        ensures n1[i] == n2[i]
      {
        assert p[d + i] == n1[i] && p[d + i] == n2[i];
      }
    }
  }

  /** One entry of a well-named listing contributes each file once, every
      one of them at or below the entry's own path. */
  lemma {:induction false} ScanEntryOnce(dirPath: string, e: Entry)
    requires WellNamedEntry(e)
    ensures ScanEntry(dirPath, e).Ok? ==>
      && DistinctFilePaths(ScanEntry(dirPath, e).value)
      && forall f :: f in ScanEntry(dirPath, e).value ==> UnderName(dirPath, e.name, f.path)
    decreases e, 0
  {
    match e
    case Directory(name, readable, children) =>
      if !SkippedDirectory(name) && readable {
        ScanEntriesOnce(Join(dirPath, name), children);
      }
    case RegularFile(name) =>
    case OtherEntry(_) =>
  }

  /** `p` lies at or below one of the entries' names. */
  ghost predicate UnderSomeName(dirPath: string, entries: seq<Entry>, p: string) {
    exists i :: 0 <= i < |entries| && UnderName(dirPath, entries[i].name, p)
  }

  /** What lies below a later entry of a well-named listing lies below the
      listing, and not below its first entry. */
  lemma UnderLaterName(dirPath: string, entries: seq<Entry>, p: string)
    requires entries != [] && WellNamed(entries)
    requires UnderSomeName(dirPath, entries[1..], p)
    ensures UnderSomeName(dirPath, entries, p)
    ensures !UnderName(dirPath, entries[0].name, p)
  {
    var k :| 0 <= k < |entries[1..]| && UnderName(dirPath, entries[1..][k].name, p);
    assert entries[k + 1] == entries[1..][k];
    assert WellNamedEntry(entries[0]) && WellNamedEntry(entries[k + 1]);
    if UnderName(dirPath, entries[0].name, p) {
      SeparateNames(dirPath, entries[0].name, entries[k + 1].name, p);
    }
  }

  /** Two runs of distinct paths, one all below a name and the other none
      below it, join into a run of distinct paths. */
  lemma JoinApart(dirPath: string, name: string, head: seq<FileRef>, rest: seq<FileRef>)
    requires DistinctFilePaths(head) && DistinctFilePaths(rest)
    requires forall f :: f in head ==> UnderName(dirPath, name, f.path)
    requires forall f :: f in rest ==> !UnderName(dirPath, name, f.path)
    ensures DistinctFilePaths(head + rest)
  {
    var all := head + rest;
    forall i, j | 0 <= i < j < |all|
      ensures all[i].path != all[j].path
    {
      if j < |head| {
        assert all[i] == head[i] && all[j] == head[j];
      } else if i >= |head| {
        assert all[i] == rest[i - |head|] && all[j] == rest[j - |head|];
      } else {
        assert all[i] == head[i] && head[i] in head;
        assert all[j] == rest[j - |head|] && rest[j - |head|] in rest;
      }
    }
  }

  /** A well-named listing yields each file once. */
  lemma {:induction false} ScanEntriesOnce(dirPath: string, entries: seq<Entry>)
    requires WellNamed(entries)
    ensures ScanEntries(dirPath, entries).Ok? ==>
      && DistinctFilePaths(ScanEntries(dirPath, entries).value)
      && forall f :: f in ScanEntries(dirPath, entries).value ==> UnderSomeName(dirPath, entries, f.path)
    decreases entries, 1
  {
    if entries != [] && ScanEntries(dirPath, entries).Ok? {
      var tail := entries[1..];
      assert WellNamed(tail) by {
        forall i | 0 <= i < |tail|
          ensures WellNamedEntry(tail[i])
        {
          assert tail[i] == entries[i + 1];
        }
      }
      ScanEntryOnce(dirPath, entries[0]);
      ScanEntriesOnce(dirPath, tail);
      var head := ScanEntry(dirPath, entries[0]).value;
      var rest := ScanEntries(dirPath, tail).value;
      assert ScanEntries(dirPath, entries).value == head + rest;
      forall f | f in rest
        ensures UnderSomeName(dirPath, entries, f.path) && !UnderName(dirPath, entries[0].name, f.path)
      {
        UnderLaterName(dirPath, entries, f.path);
      }
      forall f | f in head
        ensures UnderSomeName(dirPath, entries, f.path)
      {
        assert UnderName(dirPath, entries[0].name, f.path);
      }
      JoinApart(dirPath, entries[0].name, head, rest);
    }
  }

  /** On a well-named directory `select-folder` returns each file once. */
  lemma SelectFolderListsEachOnce(dirPath: string, readable: bool, entries: seq<Entry>)
    requires WellNamed(entries)
    ensures DistinctFilePaths(SelectFolder(dirPath, readable, entries))
  {
    ScanEntriesOnce(dirPath, entries);
  }
}

=== FILE: history.dfy ===
/** The rename history kept by the main process (`addToHistory`, the
    `get-history` and `clear-history` handlers) and the history page's
    previous/next counter in the renderer. The history file's reading,
    writing and JSON encoding are not modelled: the stored list is an input
    and the list to store is the result. */
module History {
  import opened Results
  import opened JsText

  datatype Status = Succeeded | Failed

  /** What the rename handler reports before `addToHistory` stamps it. */
  datatype Attempt = Attempt(originalName: string, newName: string, status: Status, error: Option<string>)

  /** A stored entry: the attempt plus `date` (an ISO-8601 string) and `id`
      (the `Date.now()` reading). */
  datatype HistoryEntry = HistoryEntry(attempt: Attempt, date: string, id: int)

  /** The most entries `addToHistory` keeps. */
  const Capacity := 100

  /** `addToHistory`: the stamped entry goes to the front and, when the list
      has grown past the capacity, the last (oldest) entry is popped. */
  function AddToHistory(history: seq<HistoryEntry>, a: Attempt, date: string, id: int): (r: seq<HistoryEntry>)
    ensures |r| >= 1 && r[0] == HistoryEntry(a, date, id)
    ensures |history| < Capacity ==> r[1..] == history
    ensures |history| >= Capacity ==> r[1..] == history[..|history| - 1]
  {
    var grown := [HistoryEntry(a, date, id)] + history;
    if |grown| > Capacity then grown[..|grown| - 1] else grown
  }

  /** A history within the capacity stays within it. */
  lemma AddKeepsBound(history: seq<HistoryEntry>, a: Attempt, date: string, id: int)
    requires |history| <= Capacity
    ensures |AddToHistory(history, a, date, id)| <= Capacity
  {
  }

  /** One stamped attempt to record. */
  datatype Stamped = Stamped(attempt: Attempt, date: string, id: int)

  /** Records the attempts one after the other, the first one first. */
  function AddAll(history: seq<HistoryEntry>, batch: seq<Stamped>): seq<HistoryEntry>
    decreases |batch|
  {
    if batch == [] then history
    else
      var last := batch[|batch| - 1];
      AddToHistory(AddAll(history, batch[..|batch| - 1]), last.attempt, last.date, last.id)
  }

  /** The entries of a batch, newest first. */
  function NewestFirst(batch: seq<Stamped>): (r: seq<HistoryEntry>)
    ensures |r| == |batch|
    ensures forall i :: 0 <= i < |batch| ==>
      r[i] == HistoryEntry(batch[|batch| - 1 - i].attempt, batch[|batch| - 1 - i].date, batch[|batch| - 1 - i].id)
  {
    if batch == [] then []
    else
      var last := batch[|batch| - 1];
      [HistoryEntry(last.attempt, last.date, last.id)] + NewestFirst(batch[..|batch| - 1])
  }

  /** Starting from an empty history, recording any number of attempts keeps
      exactly the newest `min(n, 100)` of them, newest first. */
  lemma {:induction false} AddAllKeepsNewest(batch: seq<Stamped>)
    ensures var n := if |batch| < Capacity then |batch| else Capacity;
      AddAll([], batch) == NewestFirst(batch)[..n]
    decreases |batch|
  {
    if batch != [] {
      var init := batch[..|batch| - 1];
      AddAllKeepsNewest(init);
      var last := batch[|batch| - 1];
      var e := HistoryEntry(last.attempt, last.date, last.id);
      assert NewestFirst(batch) == [e] + NewestFirst(init);
      var m := if |init| < Capacity then |init| else Capacity;
      var prev := NewestFirst(init)[..m];
      if |init| < Capacity {
        assert [e] + prev == NewestFirst(batch)[..|batch|];
      } else {
        assert ([e] + prev)[..Capacity] == NewestFirst(batch)[..Capacity];
      }
    }
  }

  /** 101 attempts recorded into an empty history leave the last 100, newest
      first: the first attempt is the one evicted. */
  lemma HundredAndOneKeepsNewestHundred(batch: seq<Stamped>)
    requires |batch| == Capacity + 1
    ensures var r := AddAll([], batch);
      && |r| == Capacity
      && r[0].id == batch[Capacity].id
      && r[Capacity - 1].id == batch[1].id
      && forall i :: 0 <= i < |r| ==> r[i].attempt == batch[Capacity - i].attempt
  {
    AddAllKeepsNewest(batch);
  }

  /** The `get-history` reply. */
  datatype HistoryPage = HistoryPage(items: seq<HistoryEntry>, total: nat, page: int, totalPages: nat)

  /** `Math.ceil(n / limit)` for a positive `limit`. */
  function CeilDiv(n: nat, limit: nat): (q: nat)
    requires limit > 0
    ensures q * limit >= n
    ensures q == 0 || (q - 1) * limit < n
  {
    (n + limit - 1) / limit
  }

  /** The `get-history` handler for a page number and a positive page size:
      page `page` holds the entries from `(page - 1) * limit` on, `limit` of
      them or as many as remain. */
  function GetHistory(history: seq<HistoryEntry>, page: int, limit: nat): (r: HistoryPage)
    requires limit > 0
    ensures r.total == |history| && r.page == page
    ensures r.totalPages * limit >= |history| && (r.totalPages == 0 || (r.totalPages - 1) * limit < |history|)
    ensures var start := (page - 1) * limit;
      page >= 1 ==>
        && |r.items| == (if start >= |history| then 0 else if |history| - start < limit then |history| - start else limit)
        && forall k :: 0 <= k < |r.items| ==> 0 <= start + k < |history| && r.items[k] == history[start + k]
  {
    var start := (page - 1) * limit;
    var r := HistoryPage(Slice(history, start, start + limit), |history|, page, CeilDiv(|history|, limit));
    if page >= 1 then FirstOfPage(page, limit); SliceFrom(history, start, limit); r else r
  }

  /** Page `page >= 1` starts at a non-negative index. */
  lemma FirstOfPage(page: int, limit: nat)
    requires page >= 1
    ensures (page - 1) * limit >= 0
  {
  }

  /** `limit` entries from `start`, or as many as remain. */
  lemma SliceFrom(history: seq<HistoryEntry>, start: nat, limit: nat)
    ensures var items := Slice(history, start, start + limit);
      && |items| == (if start >= |history| then 0 else if |history| - start < limit then |history| - start else limit)
      && forall k :: 0 <= k < |items| ==> 0 <= start + k < |history| && items[k] == history[start + k]
  {
    if start <= |history| {
      SliceWithin(history, start, start + limit);
    }
  }

  lemma FactorOrder(a: int, b: int, limit: nat)
    requires limit > 0 && a * limit > b * limit
    ensures a > b
  {
  }

  /** Paging from 1 to `totalPages` shows every entry exactly where it is:
      entry `i` is item `i % limit` of page `i / limit + 1`. */
  lemma EntryOnItsPage(history: seq<HistoryEntry>, limit: nat, i: nat)
    requires limit > 0 && i < |history|
    ensures var p := GetHistory(history, i / limit + 1, limit);
      && 1 <= i / limit + 1 <= p.totalPages
      && i % limit < |p.items|
      && p.items[i % limit] == history[i]
  {
    var q := i / limit;
    var r := i % limit;
    var start := q * limit;
    assert i == start + r;
    var tp := CeilDiv(|history|, limit);
    FactorOrder(tp, q, limit);
    assert (q + 1 - 1) * limit == start;
    SliceWithin(history, start, start + limit);
    var items := Slice(history, start, start + limit);
    assert items[r] == history[i];
  }

  /** A page past the last one is empty. */
  lemma PagePastEndIsEmpty(history: seq<HistoryEntry>, page: int, limit: nat)
    requires limit > 0
    requires page > CeilDiv(|history|, limit)
    ensures GetHistory(history, page, limit).items == []
  {
    var start := (page - 1) * limit;
    assert CeilDiv(|history|, limit) * limit >= |history|;
    assert (page - 1) * limit >= CeilDiv(|history|, limit) * limit;
  }

  /** `clear-history` stores the empty list. */
  function ClearHistory(): (r: seq<HistoryEntry>)
    ensures |r| == 0
  {
    []
  }

  /** After clearing, the history page shows nothing and counts no pages. */
  lemma ClearedHistoryShowsNothing(page: int, limit: nat)
    requires limit > 0
    ensures var p := GetHistory(ClearHistory(), page, limit);
      p.items == [] && p.total == 0 && p.totalPages == 0
  {
  }

  /** A click on the history page's navigation. */
  datatype PageClick = Prev | Next(totalPages: int)

  /** The renderer's `currentPage` after a click: "prev" steps back only from
      above page 1 and "next" steps on only below the last known page. */
  function Click(currentPage: int, c: PageClick): (p: int)
    ensures currentPage >= 1 ==> p >= 1
    ensures c.Prev? && currentPage > 1 ==> p == currentPage - 1
    ensures c.Prev? && currentPage <= 1 ==> p == currentPage
    ensures c.Next? && currentPage < c.totalPages ==> p == currentPage + 1
    ensures c.Next? && currentPage >= c.totalPages ==> p == currentPage
  {
    match c
    case Prev => if currentPage > 1 then currentPage - 1 else currentPage
    case Next(total) => if currentPage < total then currentPage + 1 else currentPage
  }

  function Clicks(currentPage: int, cs: seq<PageClick>): int
    decreases |cs|
  {
    if cs == [] then currentPage else Clicks(Click(currentPage, cs[0]), cs[1..])
  }

  /** Starting from a page between 1 and a bound that no "next" click's
      total exceeds, every sequence of clicks stays between 1 and that bound. */
  lemma {:induction false} ClicksStayInRange(currentPage: int, bound: int, cs: seq<PageClick>)
    requires 1 <= currentPage <= bound
    requires forall i :: 0 <= i < |cs| ==> cs[i].Next? ==> cs[i].totalPages <= bound
    ensures 1 <= Clicks(currentPage, cs) <= bound
    decreases |cs|
  {
    if cs != [] {
      ClicksStayInRange(Click(currentPage, cs[0]), bound, cs[1..]);
    }
  }
}

=== FILE: js_text.dfy ===
/** The JavaScript string operations the renamer relies on: `trim`, `slice`,
    `toLowerCase`, `startsWith`, `Array.prototype.join`, number-to-string
    interpolation and `parseInt`. */
module JsText {
  import opened Results

  /** The characters `String.prototype.trim` and `parseInt` skip: the
      WhiteSpace and LineTerminator productions of ECMA-262. */
  predicate IsJsWhitespace(c: char) {
    || c == ' ' || c == '\t' || c == '\n' || c == '\U{B}' || c == '\U{C}' || c == '\r'
    || c == '\U{A0}' || c == '\U{1680}' || ('\U{2000}' <= c <= '\U{200A}')
    || c == '\U{2028}' || c == '\U{2029}' || c == '\U{202F}' || c == '\U{205F}'
    || c == '\U{3000}' || c == '\U{FEFF}'
  }

  predicate IsBlank(s: string) {
    forall i :: 0 <= i < |s| ==> IsJsWhitespace(s[i])
  }

  /** The end of the whitespace run that starts at `k`. */
  function BlankRunEnd(s: string, k: nat): (e: nat)
    requires k <= |s|
    ensures k <= e <= |s|
    ensures forall i :: k <= i < e ==> IsJsWhitespace(s[i])
    ensures e == |s| || !IsJsWhitespace(s[e])
    decreases |s| - k
  {
    if k < |s| && IsJsWhitespace(s[k]) then BlankRunEnd(s, k + 1) else k
  }

  /** The start of the whitespace run that ends at `k`. */
  function BlankRunStart(s: string, k: nat): (b: nat)
    requires k <= |s|
    ensures b <= k
    ensures forall i :: b <= i < k ==> IsJsWhitespace(s[i])
    ensures b == 0 || !IsJsWhitespace(s[b - 1])
  {
    if k > 0 && IsJsWhitespace(s[k - 1]) then BlankRunStart(s, k - 1) else k
  }

  /** Drops leading whitespace: the result is the longest suffix of `s` that
      does not start with whitespace. */
  function TrimStart(s: string): (r: string)
    ensures |r| <= |s| && r == s[|s| - |r|..]
    ensures IsBlank(s[..|s| - |r|])
    ensures r == [] || !IsJsWhitespace(r[0])
  {
    var e := BlankRunEnd(s, 0);
    assert forall i :: 0 <= i < e ==> s[..e][i] == s[i];
    s[e..]
  }

  /** Drops trailing whitespace: the result is the longest prefix of `s` that
      does not end with whitespace. */
  function TrimEnd(s: string): (r: string)
    ensures |r| <= |s| && r == s[..|r|]
    ensures IsBlank(s[|r|..])
    ensures r == [] || !IsJsWhitespace(r[|r| - 1])
  {
    var b := BlankRunStart(s, |s|);
    assert forall i :: 0 <= i < |s| - b ==> s[b..][i] == s[b + i];
    s[..b]
  }

  /** `String.prototype.trim`. */
  function Trim(s: string): string {
    TrimEnd(TrimStart(s))
  }

  /** Whitespace-only runs cut from the front of `s` and then from the back
      of what is left: what remains is a slice of `s` between them. */
  lemma CutBothEnds(s: string, t: string, r: string)
    requires |t| <= |s| && t == s[|s| - |t|..] && IsBlank(s[..|s| - |t|])
    requires |r| <= |t| && r == t[..|r|] && IsBlank(t[|r|..])
    ensures var i := |s| - |t|;
      && 0 <= i <= i + |r| <= |s| && r == s[i..i + |r|]
      && IsBlank(s[..i]) && IsBlank(s[i + |r|..])
  {
    assert t[|r|..] == s[|s| - |t| + |r|..];
  }

  /** `trim` cuts a contiguous slice out of `s`, with only whitespace around it. */
  lemma TrimIsInnerSlice(s: string)
    ensures var r := Trim(s);
      exists i :: 0 <= i <= i + |r| <= |s| && r == s[i..i + |r|]
        && IsBlank(s[..i]) && IsBlank(s[i + |r|..])
  {
    var t := TrimStart(s);
    CutBothEnds(s, t, TrimEnd(t));
  }

  /** What `trim` returns neither starts nor ends with whitespace. */
  lemma TrimHasNoOuterWhitespace(s: string)
    ensures var r := Trim(s);
      r == [] || (!IsJsWhitespace(r[0]) && !IsJsWhitespace(r[|r| - 1]))
  {
    var t := TrimStart(s);
    var r := TrimEnd(t);
    assert r != [] ==> r[0] == t[0];
  }

  lemma BlankConcat(a: string, b: string)
    requires IsBlank(a) && IsBlank(b)
    ensures IsBlank(a + b)
  {
  }

  /** A string trims to nothing exactly when every character is whitespace. */
  lemma TrimEmptyIffBlank(s: string)
    ensures Trim(s) == [] <==> IsBlank(s)
  {
    var t := TrimStart(s);
    assert s == s[..|s| - |t|] + t;
    if Trim(s) == [] {
      assert t[|Trim(s)|..] == t;
      BlankConcat(s[..|s| - |t|], t);
    } else if t != [] {
      assert t[0] == s[|s| - |t|];
    }
  }

  /** The index `slice` derives from a relative position: negative positions
      count back from the end, and every position is clamped to `[0, len]`. */
  function RelativeIndex(i: int, len: nat): (k: nat)
    ensures k <= len
    ensures 0 <= i <= len ==> k == i
    ensures -(len as int) <= i < 0 ==> k == len + i
    ensures i < -(len as int) ==> k == 0
    ensures len < i ==> k == len
  {
    if i < 0 then (if len + i < 0 then 0 else len + i)
    else if i > len then len
    else i
  }

  /** `slice(start, end)` of strings and arrays. */
  function Slice<T>(s: seq<T>, start: int, end: int): seq<T> {
    var from := RelativeIndex(start, |s|);
    var to := RelativeIndex(end, |s|);
    if from < to then s[from..to] else []
  }

  /** Between two non-negative positions, `slice` is the plain subsequence,
      cut short at the end of `s`. */
  lemma SliceWithin<T>(s: seq<T>, start: nat, end: nat)
    requires start <= |s| && start <= end
    ensures Slice(s, start, end) == s[start..if end < |s| then end else |s|]
  {
  }

  /** `s.slice(0, n)`: the first `n` characters, or all of `s` when it is shorter. */
  lemma SliceHead(s: string, n: nat)
    ensures Slice(s, 0, n) == s[..if |s| < n then |s| else n]
  {
  }

  /** `s.slice(-n)` for a positive `n`: the last `n` characters, or all of `s`
      when it is shorter; for `n == 0` JavaScript's `-0` is `0`, so the whole
      string; for a negative `n` the first `-n` characters are dropped. */
  lemma SliceTail(s: string, n: int)
    ensures var r := Slice(s, -n, |s|);
      && (n > 0 ==> r == s[|s| - (if |s| < n then |s| else n)..])
      && (n == 0 ==> r == s)
      && (n < 0 ==> r == s[if -n < |s| then -n else |s|..])
  {
  }

  /** `toLowerCase` on the ASCII letters; every other character is kept. */
  function ToLower(s: string): (r: string)
    ensures |r| == |s|
    ensures forall i :: 0 <= i < |s| ==>
      r[i] == if 'A' <= s[i] <= 'Z' then (s[i] as int + 32) as char else s[i]
  {
    if s == [] then []
    else [if 'A' <= s[0] <= 'Z' then (s[0] as int + 32) as char else s[0]] + ToLower(s[1..])
  }

  predicate StartsWith(s: string, prefix: string) {
    |prefix| <= |s| && s[..|prefix|] == prefix
  }

  /** `lines.join('\n')`. */
  function JoinLines(lines: seq<string>): string {
    if lines == [] then []
    else if |lines| == 1 then lines[0]
    else lines[0] + "\n" + JoinLines(lines[1..])
  }

  /** Joining two non-empty runs of lines puts one newline between the two joins. */
  lemma {:induction false} JoinLinesAppend(a: seq<string>, b: seq<string>)
    requires a != [] && b != []
    ensures JoinLines(a + b) == JoinLines(a) + "\n" + JoinLines(b)
  {
    if |a| == 1 {
      assert a + b == [a[0]] + b;
      assert (a + b)[1..] == b;
    } else {
      assert (a + b)[1..] == a[1..] + b;
      JoinLinesAppend(a[1..], b);
    }
  }

  /** Three lines joined: the first, a newline, the second, a newline, the third. */
  lemma JoinThree(a: string, b: string, c: string)
    ensures JoinLines([a, b, c]) == a + "\n" + b + "\n" + c
  {
    assert [a, b, c][1..] == [b, c];
    assert [b, c][1..] == [c];
    assert JoinLines([b, c]) == b + "\n" + c;
    assert JoinLines([a, b, c]) == a + "\n" + (b + "\n" + c);
  }

  predicate IsDigit(c: char) {
    '0' <= c <= '9'
  }

  predicate AllDigits(s: string) {
    forall i :: 0 <= i < |s| ==> IsDigit(s[i])
  }

  function DigitChar(d: nat): (c: char)
    requires d < 10
    ensures IsDigit(c)
  {
    ('0' as int + d) as char
  }

  /** The decimal digits of `n`, most significant first, without leading zeros. */
  function NatToString(n: nat): (r: string)
    ensures r != [] && AllDigits(r)
    ensures |r| > 1 ==> r[0] != '0'
    decreases n
  {
    if n < 10 then [DigitChar(n)]
    else NatToString(n / 10) + [DigitChar(n % 10)]
  }

  /** How a JavaScript integer is written by string interpolation. */
  function IntToString(n: int): (r: string)
    ensures r != []
    ensures n < 0 <==> r[0] == '-'
    ensures AllDigits(if n < 0 then r[1..] else r)
  {
    if n < 0 then "-" + NatToString(-n) else NatToString(n)
  }

  /** The value of a run of decimal digits. */
  function DigitsValue(s: string): nat
    requires AllDigits(s)
  {
    if s == [] then 0
    else DigitsValue(s[..|s| - 1]) * 10 + (s[|s| - 1] as int - '0' as int)
  }

  /** The longest prefix of `s` made of decimal digits. */
  function DigitPrefix(s: string): (r: string)
    ensures |r| <= |s| && r == s[..|r|] && AllDigits(r)
    ensures |r| < |s| ==> !IsDigit(s[|r|])
  {
    if s != [] && IsDigit(s[0]) then
      var r := [s[0]] + DigitPrefix(s[1..]);
      assert s[..|r|] == [s[0]] + s[1..][..|r| - 1];
      r
    else []
  }

  /** `parseInt(s)` (radix omitted): skip whitespace, read an optional sign and
      the longest run of decimal digits; `None` is JavaScript's `NaN`. */
  function ParseInt(s: string): Option<int> {
    var t := TrimStart(s);
    var signed := t != [] && (t[0] == '-' || t[0] == '+');
    var digits := DigitPrefix(if signed then t[1..] else t);
    if digits == [] then None
    else if signed && t[0] == '-' then Some(-(DigitsValue(digits) as int))
    else Some(DigitsValue(digits))
  }

  lemma {:induction false} NatToStringValue(n: nat)
    ensures DigitsValue(NatToString(n)) == n
    decreases n
  {
    if n >= 10 {
      NatToStringValue(n / 10);
      var s := NatToString(n);
      assert s[..|s| - 1] == NatToString(n / 10);
    }
  }

  lemma DigitPrefixOfDigits(s: string)
    requires AllDigits(s)
    ensures DigitPrefix(s) == s
  {
  }

  /** A string that starts with a non-whitespace character is its own `trimStart`. */
  lemma TrimStartKeeps(s: string)
    requires s != [] && !IsJsWhitespace(s[0])
    ensures TrimStart(s) == s
  {
  }

  /** `parseInt` reads back a run of digits. */
  lemma ParseIntOfDigits(d: string)
    requires d != [] && AllDigits(d)
    ensures ParseInt(d) == Some(DigitsValue(d))
  {
    DigitPrefixOfDigits(d);
    assert IsDigit(d[0]);
    TrimStartKeeps(d);
  }

  /** `parseInt` reads back a run of digits after a minus sign. */
  lemma ParseIntOfNegatedDigits(d: string)
    requires d != [] && AllDigits(d)
    ensures ParseInt("-" + d) == Some(-(DigitsValue(d) as int))
  {
    var s := "-" + d;
    DigitPrefixOfDigits(d);
    assert s[0] == '-' && s[1..] == d;
    TrimStartKeeps(s);
  }

  lemma ParseIntOfNatToString(n: nat)
    ensures ParseInt(IntToString(n)) == Some(n as int)
  {
    var d := NatToString(n);
    assert IntToString(n) == d;
    NatToStringValue(n);
    ParseIntOfDigits(d);
  }

  lemma ParseIntOfNegativeToString(n: int)
    requires n < 0
    ensures ParseInt(IntToString(n)) == Some(n)
  {
    var d := NatToString(-n);
    assert IntToString(n) == "-" + d;
    NatToStringValue(-n);
    ParseIntOfNegatedDigits(d);
    var p := ParseInt("-" + d);
    assert p == Some(-(DigitsValue(d) as int));
    assert p.value == n;
  }

  /** `parseInt` reads back what interpolation writes. */
  lemma ParseIntOfIntToString(n: int)
    ensures ParseInt(IntToString(n)) == Some(n)
  {
    if n < 0 {
      ParseIntOfNegativeToString(n);
    } else {
      ParseIntOfNatToString(n);
    }
  }
}

=== FILE: paths.dfy ===
/** File paths as the renamer builds and takes them apart with Node's `path`
    module: `join`, `basename`, `dirname` and `extname`. A path is a
    '/'-separated string; Node's normalisation of `.`, `..` and repeated
    separators is not part of this model. */
module Paths {
  import opened JsText

  /** The file record the main process hands to the renderer: full path,
      base name and lower-cased extension. */
  datatype FileRef = FileRef(path: string, name: string, ext: string)

  predicate NoSlash(s: string) {
    forall i :: 0 <= i < |s| ==> s[i] != '/'
  }

  /** `path.join(dir, name)`. */
  function Join(dir: string, name: string): string {
    dir + "/" + name
  }

  /** Index of the last occurrence of `c` in `s`, or -1. */
  function LastIndexOf(s: string, c: char): (k: int)
    ensures -1 <= k < |s|
    ensures k >= 0 ==> s[k] == c
    ensures forall i :: k < i < |s| ==> s[i] != c
  {
    if s == [] then -1
    else if s[|s| - 1] == c then |s| - 1
    else LastIndexOf(s[..|s| - 1], c)
  }

  /** `path.basename(p)`: what follows the last separator. */
  function Basename(p: string): string {
    p[LastIndexOf(p, '/') + 1..]
  }

  /** `path.dirname(p)`: what precedes the last separator, `.` when there is none. */
  function Dirname(p: string): string {
    var k := LastIndexOf(p, '/');
    if k < 0 then "." else p[..k]
  }

  /** Joining a directory with a separator-free name can be undone by
      `basename` and `dirname`. */
  lemma JoinSplits(dir: string, name: string)
    requires NoSlash(name)
    ensures Basename(Join(dir, name)) == name
    ensures Dirname(Join(dir, name)) == dir
  {
    var p := Join(dir, name);
    var k := LastIndexOf(p, '/');
    assert p[|dir|] == '/';
    assert k == |dir|;
    assert p[k + 1..] == name;
    assert p[..k] == dir;
  }

  /** `path.extname(name)` for a base name: from the last '.' to the end,
      except that a name without a dot, a name whose only dot leads it (a
      dot-file such as `.bashrc`) and the name `..` have no extension. */
  function Extname(name: string): (r: string)
    ensures r == [] || (|r| < |name| && r[0] == '.' && r == name[|name| - |r|..])
  {
    var k := LastIndexOf(name, '.');
    if k <= 0 || name == ".." then [] else name[k..]
  }

  /** The lower-cased extension of a path, as `path.extname(p).toLowerCase()`. */
  function LowerExt(p: string): string {
    ToLower(Extname(Basename(p)))
  }

  /** A name ending in an extension of `'.'` plus dot-free characters, with
      something in front that is not all dots, has exactly that extension. */
  lemma ExtnameOfDotted(stem: string, tail: string)
    requires stem != [] && stem != "."
    requires forall i :: 0 <= i < |tail| ==> tail[i] != '.'
    ensures Extname(stem + "." + tail) == "." + tail
  {
    var name := stem + "." + tail;
    var k := LastIndexOf(name, '.');
    assert name[|stem|] == '.';
    assert k == |stem|;
    if |name| == 2 {
      assert stem == [name[0]];
    }
    assert name[k..] == "." + tail;
  }
}

=== FILE: pipeline.dfy ===
/** The main process's `rename-file` handler: classify the file by its
    extension, read its text (or send the image), build the prompt, ask the
    configured provider for a name, turn the reply into a base name, avoid
    a collision, move the file with `safeRename` and record the attempt in
    the history. Reading and PDF parsing, the provider, the case library,
    the file system's faults and the clock are all given. */
module RenamePipeline {
  import opened Results
  import opened JsText
  import opened Paths
  import opened Settings
  import opened Provider
  import opened Casing
  import opened SafeRename
  import opened History

  const ImageExtensions: seq<string> := [".jpg", ".jpeg", ".png", ".bmp", ".tif", ".tiff"]
  const VideoExtensions: seq<string> := [".mp4", ".avi", ".mov", ".wmv", ".flv", ".mkv", ".webm"]

  /** How many characters of a document go into the prompt. */
  const ContentLimit := 5000
  /** How many characters of the reply beyond `maxChars` are kept. */
  const ReplySlack := 10
  /** The attempts `safeRename` is given by the handler (its default). */
  const RenameRetries := 3

  const VideoError := "Video processing requires ffmpeg. Please install ffmpeg to rename videos."
  const EmptyError := "No text content found in file"
  /** The new name recorded for a failed attempt. */
  const NoNewName := "-"

  datatype Kind = ImageFile | VideoFile | TextFile

  /** Images are recognised first, then videos; everything else is text. */
  function Classify(ext: string): Kind {
    if ext in ImageExtensions then ImageFile
    else if ext in VideoExtensions then VideoFile
    else TextFile
  }

  /** The two lists share no extension, so each kind is exactly its list:
      the order of the checks does not matter. */
  lemma ClassifyByList(ext: string)
    ensures Classify(ext) == ImageFile <==> ext in ImageExtensions
    ensures Classify(ext) == VideoFile <==> ext in VideoExtensions
    ensures Classify(ext) == TextFile <==> ext !in ImageExtensions && ext !in VideoExtensions
  {
    if ext in ImageExtensions && ext in VideoExtensions {
      assert false;
    }
  }

  /** UTF-8 decoding and `pdf-parse`, which may throw. */
  datatype Readers = Readers(decodeUtf8: seq<bv8> -> string, pdfText: seq<bv8> -> Result<string>)

  /** The text of a non-image, non-video file: the PDF's extracted text for
      `.pdf`, the decoded file otherwise, cut to its first 5000 characters. */
  function ReadContent(fs: FileSystem, filePath: string, ext: string, readers: Readers): (r: Result<string>)
    ensures filePath !in fs ==> r.Err?
    ensures r.Ok? ==> filePath in fs && |r.value| <= ContentLimit
    ensures r.Ok? && ext != ".pdf" ==> var full := readers.decodeUtf8(fs[filePath]);
      |r.value| <= |full| && r.value == full[..|r.value|] && (|full| <= ContentLimit ==> r.value == full)
    ensures ext != ".pdf" && filePath in fs ==>
      r == Ok(Slice(readers.decodeUtf8(fs[filePath]), 0, ContentLimit))
    ensures ext != ".pdf" && filePath in fs && |readers.decodeUtf8(fs[filePath])| > ContentLimit ==>
      r == Ok(readers.decodeUtf8(fs[filePath])[..ContentLimit])
    ensures ext == ".pdf" && filePath in fs ==>
      (r.Err? <==> readers.pdfText(fs[filePath]).Err?)
    ensures ext == ".pdf" && filePath in fs && readers.pdfText(fs[filePath]).Ok? ==>
      r == Ok(Slice(readers.pdfText(fs[filePath]).value, 0, ContentLimit))
    ensures ext == ".pdf" && filePath in fs && readers.pdfText(fs[filePath]).Err? ==>
      r == Err(readers.pdfText(fs[filePath]).message)
  {
    if filePath !in fs then Err(Missing("open", filePath).message)
    else
      var text :- if ext == ".pdf" then readers.pdfText(fs[filePath]) else Ok(readers.decodeUtf8(fs[filePath]));
      SliceHead(text, ContentLimit);
      Ok(Slice(text, 0, ContentLimit))
  }

  /** The twelve fixed lines of the prompt with the case style, the length
      and the language filled in. */
  function PromptHeader(config: Config): seq<string> {
    [ "Generate filename:",
      "",
      "Use " + config.caseStyle,
      "Max " + IntToString(config.maxChars) + " characters",
      config.language + " only",
      "No file extension",
      "No special chars",
      "Only key elements",
      "One word if possible",
      "Noun-verb format",
      "",
      "Respond ONLY with filename." ]
  }

  /** An optional titled section: a blank line, the title and the body,
      present only when the body is non-empty. */
  function Section(title: string, body: string): seq<string> {
    if body != "" then ["", title, body] else []
  }

  /** The prompt: the header, then the content when there is any, then the
      custom instructions when there are any, joined with newlines. */
  function BuildPrompt(config: Config, content: Option<string>): (r: string)
    ensures r ==
      JoinLines(PromptHeader(config))
      + SectionText("Content:", if content.Some? then content.value else "")
      + SectionText("Custom instructions:", config.customInstructions)
  {
    var body := if content.Some? then content.value else "";
    LayoutSections(PromptHeader(config), body, config.customInstructions);
    Layout(PromptHeader(config), body, config.customInstructions)
  }

  function Layout(header: seq<string>, content: string, instructions: string): string {
    JoinLines(header + Section("Content:", content) + Section("Custom instructions:", instructions))
  }

  /** A section as text: `\n\n`, the title, a newline and the body, or
      nothing when the body is empty. */
  function SectionText(title: string, body: string): string {
    if body != "" then "\n\n" + title + "\n" + body else ""
  }

  /** Appending a section's lines appends its text. */
  lemma JoinSection(lines: seq<string>, title: string, body: string)
    requires lines != []
    ensures JoinLines(lines + Section(title, body)) == JoinLines(lines) + SectionText(title, body)
  {
    if body != "" {
      JoinLinesAppend(lines, Section(title, body));
      JoinThree("", title, body);
    } else {
      assert lines + Section(title, body) == lines;
    }
  }

  /** The text is the header's lines, then the content section when there
      is content, then the custom-instructions section when there are
      instructions, in that order. */
  lemma LayoutSections(header: seq<string>, content: string, instructions: string)
    requires header != []
    ensures Layout(header, content, instructions) ==
      JoinLines(header) + SectionText("Content:", content) + SectionText("Custom instructions:", instructions)
  {
    var withContent := header + Section("Content:", content);
    JoinSection(header, "Content:", content);
    JoinSection(withContent, "Custom instructions:", instructions);
  }

  /** An image's prompt has no content section. */
  lemma ImagePromptLayout(config: Config)
    ensures BuildPrompt(config, None) ==
      JoinLines(PromptHeader(config)) + SectionText("Custom instructions:", config.customInstructions)
  {
    LayoutSections(PromptHeader(config), "", config.customInstructions);
  }

  /** The base URL the handler uses: the configured one, or for a known
      provider its default address. */
  function ResolveBaseUrl(config: Config): string {
    if config.provider == "ollama" && config.baseUrl == "" then OllamaUrl
    else if config.provider == "lm-studio" && config.baseUrl == "" then LmStudioUrl
    else if config.provider == "openai" && config.baseUrl == "" then OpenAiUrl
    else config.baseUrl
  }

  /** The handler's defaults agree with the settings page's: the base URL is
      the configured one or `getDefaultBaseUrl(provider)`. */
  lemma ResolveBaseUrlAgreesWithSettings(config: Config)
    ensures ResolveBaseUrl(config) == if config.baseUrl != "" then config.baseUrl else DefaultBaseUrl(config.provider)
  {
  }

  /** The text handed to the case transform: the last `maxChars + 10`
      characters of the trimmed reply. */
  function NameText(reply: string, maxChars: int): string {
    var t := Trim(reply);
    Slice(t, -(maxChars + ReplySlack), |t|)
  }

  /** For a positive budget the name text is the trimmed reply's tail of at
      most `maxChars + 10` characters, and all of it when it is shorter. */
  lemma NameTextIsTail(reply: string, maxChars: int)
    requires maxChars + ReplySlack > 0
    ensures var t := Trim(reply); var r := NameText(reply, maxChars);
      && |r| <= maxChars + ReplySlack
      && r == t[|t| - |r|..]
      && (|t| <= maxChars + ReplySlack ==> r == t)
      && (|t| > maxChars + ReplySlack ==> |r| == maxChars + ReplySlack)
  {
    SliceTail(Trim(reply), maxChars + ReplySlack);
  }

  /** The new file name and path, with a `-<timestamp>` suffix before the
      extension when the plain name is already taken. */
  function FinalName(fs: FileSystem, dir: string, base: string, ext: string, now: int): (r: (string, string))
    ensures r.1 == Join(dir, r.0)
    ensures Join(dir, base + ext) !in fs ==> r.0 == base + ext
    ensures Join(dir, base + ext) in fs ==> r.0 == base + "-" + IntToString(now) + ext && r.1 != Join(dir, base + ext)
  {
    var plain := base + ext;
    if Join(dir, plain) in fs then
      var stamped := base + "-" + IntToString(now) + ext;
      assert |Join(dir, stamped)| > |Join(dir, plain)|;
      (stamped, Join(dir, stamped))
    else (plain, Join(dir, plain))
  }

  /** The reply to the renderer. */
  datatype RenameResult =
    | Renamed(originalName: string, newName: string, newPath: string)
    | NotRenamed(originalName: string, error: string)

  /** The request the handler put to a provider's client. */
  datatype ProviderCall = ProviderCall(client: Client, request: Request)

  /** Everything the handler produces: its reply, the file system and
      history after it, the provider call it made (if it made one) and the
      file-system calls of `safeRename`. */
  datatype Outcome = Outcome(
    result: RenameResult,
    fs: FileSystem,
    history: seq<HistoryEntry>,
    called: Option<ProviderCall>,
    renameCalls: seq<Call>)

  /** The clock readings: `Date.now()` for the collision suffix, and the
      ISO date and `Date.now()` that stamp the history entry. */
  datatype Clock = Clock(now: int, entryDate: string, entryId: int)

  /** The collaborators the handler reaches through I/O. */
  datatype World = World(readers: Readers, backend: Backend, cases: CaseLibrary, faults: Script, clock: Clock)

  /** What the handler has before it asks the model: a refusal (no history
      entry), a thrown error, or the content (`None` for an image) and images. */
  datatype Prepared =
    | Refused(error: string)
    | Broken(error: string)
    | Ready(content: Option<string>, images: seq<string>)

  function Prepare(filePath: string, fs: FileSystem, readers: Readers): (p: Prepared)
    ensures Classify(LowerExt(filePath)) == VideoFile <==> p == Refused(VideoError)
    ensures Classify(LowerExt(filePath)) == ImageFile <==> p == Ready(None, [filePath])
    ensures p.Ready? && p.content.Some? ==> p.images == [] && !IsBlank(p.content.value)
    ensures p.Refused? ==> p.error == VideoError || p.error == EmptyError
    ensures Classify(LowerExt(filePath)) == TextFile ==>
      var read := ReadContent(fs, filePath, LowerExt(filePath), readers);
      && (p.Broken? <==> read.Err?)
      && (read.Err? ==> p == Broken(read.message))
      && (read.Ok? && IsBlank(read.value) ==> p == Refused(EmptyError))
      && (read.Ok? && !IsBlank(read.value) ==> p == Ready(Some(read.value), []))
  {
    var ext := LowerExt(filePath);
    match Classify(ext)
    case ImageFile => Ready(None, [filePath])
    case VideoFile => Refused(VideoError)
    case TextFile =>
      match ReadContent(fs, filePath, ext, readers)
      case Err(m) => Broken(m)
      case Ok(text) =>
        TrimEmptyIffBlank(text);
        if Trim(text) == [] then Refused(EmptyError) else Ready(Some(text), [])
  }

  /** A failure caught by the handler: logged as `failed` with `-` as the new name. */
  function Failure(fileName: string, message: string, fs: FileSystem, history: seq<HistoryEntry>,
                   called: Option<ProviderCall>, calls: seq<Call>, clock: Clock): Outcome {
    Outcome(NotRenamed(fileName, message), fs,
            AddToHistory(history, Attempt(fileName, NoNewName, Failed, Some(message)), clock.entryDate, clock.entryId),
            called, calls)
  }

  /** The `rename-file` handler. A refusal changes nothing; a thrown read
      error is logged once as a failure with nothing called or moved; a file
      with content goes on to the provider with the built request. */
  function RenameFile(filePath: string, config: Config, fs: FileSystem, history: seq<HistoryEntry>, world: World): (o: Outcome)
    ensures o.result.originalName == Basename(filePath)
    ensures var p := Prepare(filePath, fs, world.readers);
      p.Refused? ==> o == Outcome(NotRenamed(Basename(filePath), p.error), fs, history, None, [])
    ensures var p := Prepare(filePath, fs, world.readers);
      p.Broken? ==>
        && o.result == NotRenamed(Basename(filePath), p.error)
        && o.fs == fs && o.called == None && o.renameCalls == []
        && o.history == AddToHistory(history, Attempt(Basename(filePath), NoNewName, Failed, Some(p.error)),
                                     world.clock.entryDate, world.clock.entryId)
    ensures var p := Prepare(filePath, fs, world.readers);
      p.Ready? ==> o.called == CallFor(config.provider,
        Request(config.model, BuildPrompt(config, p.content), p.images, config.apiKey, ResolveBaseUrl(config)))
  {
    match Prepare(filePath, fs, world.readers)
    case Refused(m) => Outcome(NotRenamed(Basename(filePath), m), fs, history, None, [])
    case Broken(m) => Failure(Basename(filePath), m, fs, history, None, [], world.clock)
    case Ready(content, images) => Ask(filePath, config, fs, history, world, Request(config.model, BuildPrompt(config, content), images, config.apiKey, ResolveBaseUrl(config)))
  }

  /** The provider call the handler makes with `req`, if the provider is known. */
  function CallFor(provider: string, req: Request): (c: Option<ProviderCall>)
    ensures c.Some? <==> provider in {"ollama", "openai", "lm-studio"}
    ensures c.Some? ==> c.value.request == req && SelectClient(provider) == Ok(c.value.client)
  {
    match SelectClient(provider)
    case Ok(client) => Some(ProviderCall(client, req))
    case Err(_) => None
  }

  /** Asking the model for a name and turning its reply into the new base name. */
  function Ask(filePath: string, config: Config, fs: FileSystem, history: seq<HistoryEntry>, world: World, req: Request): (o: Outcome)
    ensures o.called == CallFor(config.provider, req)
    ensures o.result.originalName == Basename(filePath)
    ensures o.result.NotRenamed? ==>
      o.history == AddToHistory(history, Attempt(Basename(filePath), NoNewName, Failed, Some(o.result.error)), world.clock.entryDate, world.clock.entryId)
    ensures o.result.Renamed? ==>
      o.history == AddToHistory(history, Attempt(Basename(filePath), o.result.newName, Succeeded, None), world.clock.entryDate, world.clock.entryId)
    ensures GetModelResponse(config.provider, req, world.backend).Err? ==>
      o.result == NotRenamed(Basename(filePath), GetModelResponse(config.provider, req, world.backend).message)
      && o.fs == fs && o.renameCalls == []
    ensures GetModelResponse(config.provider, req, world.backend).Ok? ==>
      var named := ChangeCase(world.cases, NameText(GetModelResponse(config.provider, req, world.backend).value, config.maxChars), config.caseStyle);
      && (named.Err? ==> o.result == NotRenamed(Basename(filePath), named.message) && o.fs == fs && o.renameCalls == [])
      && (named.Ok? ==> o == Place(filePath, named.value, fs, history, world, o.called))
  {
    var called := CallFor(config.provider, req);
    match GetModelResponse(config.provider, req, world.backend)
    case Err(m) => Failure(Basename(filePath), m, fs, history, called, [], world.clock)
    case Ok(reply) =>
      match ChangeCase(world.cases, NameText(reply, config.maxChars), config.caseStyle)
      case Err(m) => Failure(Basename(filePath), m, fs, history, called, [], world.clock)
      case Ok(base) => Place(filePath, base, fs, history, world, called)
  }

  /** Choosing the final name for `base` and moving the file there. */
  function Place(filePath: string, base: string, fs: FileSystem, history: seq<HistoryEntry>, world: World, called: Option<ProviderCall>): (o: Outcome)
    ensures o.called == called
    ensures o.result.originalName == Basename(filePath)
    ensures o.result.NotRenamed? ==>
      o.history == AddToHistory(history, Attempt(Basename(filePath), NoNewName, Failed, Some(o.result.error)), world.clock.entryDate, world.clock.entryId)
    ensures o.result.Renamed? ==>
      o.history == AddToHistory(history, Attempt(Basename(filePath), o.result.newName, Succeeded, None), world.clock.entryDate, world.clock.entryId)
    ensures o.result.Renamed? ==>
      var dir := Dirname(filePath);
      var ext := LowerExt(filePath);
      && o.result.newPath == Join(dir, o.result.newName)
      && (Join(dir, base + ext) !in fs ==> o.result.newName == base + ext)
      && (Join(dir, base + ext) in fs ==> o.result.newName == base + "-" + IntToString(world.clock.now) + ext)
      && (filePath != o.result.newPath ==> filePath in fs && o.fs == Moved(fs, filePath, o.result.newPath))
    ensures var fin := FinalName(fs, Dirname(filePath), base, LowerExt(filePath), world.clock.now);
      var run := SafeRenameRun(fs, filePath, fin.1, RenameRetries, world.faults);
      && (run.error.None? <==> o.result.Renamed?)
      && (run.error.None? ==> o.result == Renamed(Basename(filePath), fin.0, fin.1))
      && (run.error.Some? ==> o.result == NotRenamed(Basename(filePath), run.error.value.message))
      && o.fs == run.fs
      && o.renameCalls == run.calls
  {
    var (finalName, finalPath) := FinalName(fs, Dirname(filePath), base, LowerExt(filePath), world.clock.now);
    var run := SafeRenameRun(fs, filePath, finalPath, RenameRetries, world.faults);
    match run.error
    case Some(e) => Failure(Basename(filePath), e.message, run.fs, history, called, run.calls, world.clock)
    case None =>
      assert filePath != finalPath ==> filePath in fs && run.fs == Moved(fs, filePath, finalPath) by {
        if filePath != finalPath {
          SuccessMovesFile(fs, filePath, finalPath, RenameRetries, world.faults);
        }
      }
      Outcome(Renamed(Basename(filePath), finalName, finalPath), run.fs,
              AddToHistory(history, Attempt(Basename(filePath), finalName, Succeeded, None), world.clock.entryDate, world.clock.entryId),
              called, run.calls)
  }

  /** A video is refused before anything else happens: no provider call, no
      file-system call and no history entry. */
  lemma VideoIsRefused(filePath: string, config: Config, fs: FileSystem, history: seq<HistoryEntry>, world: World)
    requires LowerExt(filePath) in VideoExtensions
    ensures RenameFile(filePath, config, fs, history, world) ==
      Outcome(NotRenamed(Basename(filePath), VideoError), fs, history, None, [])
  {
    ClassifyByList(LowerExt(filePath));
  }

  /** A text file whose first 5000 characters are blank is refused in the
      same way, before any provider call and without a history entry. */
  lemma BlankTextIsRefused(filePath: string, config: Config, fs: FileSystem, history: seq<HistoryEntry>, world: World)
    requires Classify(LowerExt(filePath)) == TextFile
    requires ReadContent(fs, filePath, LowerExt(filePath), world.readers).Ok?
    requires IsBlank(ReadContent(fs, filePath, LowerExt(filePath), world.readers).value)
    ensures RenameFile(filePath, config, fs, history, world) ==
      Outcome(NotRenamed(Basename(filePath), EmptyError), fs, history, None, [])
  {
    TrimEmptyIffBlank(ReadContent(fs, filePath, LowerExt(filePath), world.readers).value);
  }

  /** A text file that cannot be read (missing, or a PDF whose text cannot
      be extracted) is reported with the read's error message and logged
      once as a failure; nothing is asked, copied or moved. */
  lemma ReadErrorIsLogged(filePath: string, config: Config, fs: FileSystem, history: seq<HistoryEntry>, world: World)
    requires Classify(LowerExt(filePath)) == TextFile
    requires ReadContent(fs, filePath, LowerExt(filePath), world.readers).Err?
    ensures var m := ReadContent(fs, filePath, LowerExt(filePath), world.readers).message;
      RenameFile(filePath, config, fs, history, world) ==
        Outcome(NotRenamed(Basename(filePath), m), fs,
                AddToHistory(history, Attempt(Basename(filePath), NoNewName, Failed, Some(m)), world.clock.entryDate, world.clock.entryId),
                None, [])
  {
  }

  /** Every attempt that is not refused up front logs exactly one history
      entry: `success` with the new name when the file was renamed, `failed`
      with `-` and the error message otherwise. Refused attempts log nothing. */
  lemma OneHistoryEntryPerAttempt(filePath: string, config: Config, fs: FileSystem, history: seq<HistoryEntry>, world: World)
    ensures var o := RenameFile(filePath, config, fs, history, world);
      var name := Basename(filePath);
      var date := world.clock.entryDate;
      var id := world.clock.entryId;
      && o.result.originalName == name
      && (Prepare(filePath, fs, world.readers).Refused? ==> o.history == history && o.result.NotRenamed?)
      && (!Prepare(filePath, fs, world.readers).Refused? && o.result.Renamed? ==>
            o.history == AddToHistory(history, Attempt(name, o.result.newName, Succeeded, None), date, id))
      && (!Prepare(filePath, fs, world.readers).Refused? && o.result.NotRenamed? ==>
            o.history == AddToHistory(history, Attempt(name, NoNewName, Failed, Some(o.result.error)), date, id))
  {
    var p := Prepare(filePath, fs, world.readers);
    if p.Ready? {
      var req := Request(config.model, BuildPrompt(config, p.content), p.images, config.apiKey, ResolveBaseUrl(config));
      assert RenameFile(filePath, config, fs, history, world) == Ask(filePath, config, fs, history, world, req);
    }
  }

  /** The provider is asked only when the file is an image or has text, and
      then with the built prompt, the image list, the key and the resolved
      base URL; an image is sent without a content section. */
  lemma ProviderSeesPrompt(filePath: string, config: Config, fs: FileSystem, history: seq<HistoryEntry>, world: World)
    ensures var o := RenameFile(filePath, config, fs, history, world);
      var p := Prepare(filePath, fs, world.readers);
      && (o.called.Some? ==> p.Ready? && SelectClient(config.provider) == Ok(o.called.value.client))
      && (o.called.Some? ==>
            o.called.value.request ==
              Request(config.model, BuildPrompt(config, p.content), p.images, config.apiKey, ResolveBaseUrl(config)))
      && (p.Ready? && config.provider in {"ollama", "openai", "lm-studio"} ==> o.called.Some?)
      && (Classify(LowerExt(filePath)) == ImageFile && o.called.Some? ==>
            o.called.value.request.prompt == BuildPrompt(config, None) && o.called.value.request.images == [filePath])
  {
    var p := Prepare(filePath, fs, world.readers);
    if p.Ready? {
      var req := Request(config.model, BuildPrompt(config, p.content), p.images, config.apiKey, ResolveBaseUrl(config));
      assert RenameFile(filePath, config, fs, history, world) == Ask(filePath, config, fs, history, world, req);
    }
  }

  /** A successful rename names the file after the case-transformed tail of
      the model's reply plus the lower-cased extension, in the same
      directory, with a timestamp suffix when the plain name was taken; the
      file has been moved there and nothing else on disk changed. */
  lemma SuccessNaming(filePath: string, config: Config, fs: FileSystem, history: seq<HistoryEntry>, world: World)
    requires RenameFile(filePath, config, fs, history, world).result.Renamed?
    ensures var o := RenameFile(filePath, config, fs, history, world);
      var p := Prepare(filePath, fs, world.readers);
      var req := Request(config.model, BuildPrompt(config, p.content), p.images, config.apiKey, ResolveBaseUrl(config));
      var dir := Dirname(filePath);
      var ext := LowerExt(filePath);
      && p.Ready?
      && GetModelResponse(config.provider, req, world.backend).Ok?
      && var base := ChangeCase(world.cases, NameText(GetModelResponse(config.provider, req, world.backend).value, config.maxChars), config.caseStyle);
      && base.Ok?
      && o.result.newPath == Join(dir, o.result.newName)
      && (Join(dir, base.value + ext) !in fs ==> o.result.newName == base.value + ext)
      && (Join(dir, base.value + ext) in fs ==> o.result.newName == base.value + "-" + IntToString(world.clock.now) + ext)
      && (filePath != o.result.newPath ==> filePath in fs && o.fs == Moved(fs, filePath, o.result.newPath))
  {
    var p := Prepare(filePath, fs, world.readers);
    if p.Ready? {
      var req := Request(config.model, BuildPrompt(config, p.content), p.images, config.apiKey, ResolveBaseUrl(config));
      assert RenameFile(filePath, config, fs, history, world) == Ask(filePath, config, fs, history, world, req);
    }
  }

  /** An unknown provider fails the attempt with "No supported provider
      found", logged once, without a provider call and without touching
      the file. */
  lemma UnknownProviderFails(filePath: string, config: Config, fs: FileSystem, history: seq<HistoryEntry>, world: World)
    requires config.provider !in {"ollama", "openai", "lm-studio"}
    requires Prepare(filePath, fs, world.readers).Ready?
    ensures var o := RenameFile(filePath, config, fs, history, world);
      && o.result == NotRenamed(Basename(filePath), NoProvider)
      && o.called == None && o.fs == fs && o.renameCalls == []
      && o.history == AddToHistory(history, Attempt(Basename(filePath), NoNewName, Failed, Some(NoProvider)),
                                   world.clock.entryDate, world.clock.entryId)
  {
    var p := Prepare(filePath, fs, world.readers);
    if p.Ready? {
      var req := Request(config.model, BuildPrompt(config, p.content), p.images, config.apiKey, ResolveBaseUrl(config));
      assert RenameFile(filePath, config, fs, history, world) == Ask(filePath, config, fs, history, world, req);
    }
  }
}

=== FILE: provider.dfy ===
/** `getModelResponse`: the choice of model-serving client by provider
    name. The HTTP exchanges themselves are not modelled; a backend is a
    given function from client and request to the reply text or the error. */
module Provider {
  import opened Results

  /** `ollamaApi` posts to `/api/generate`; `openaiApi` posts to
      `/v1/chat/completions`. */
  datatype Client = OllamaGenerate | OpenAiChat

  /** What the rename handler passes to `getModelResponse` besides the provider. */
  datatype Request = Request(model: string, prompt: string, images: seq<string>, apiKey: string, baseUrl: string)

  type Backend = (Client, Request) -> Result<string>

  const NoProvider := "No supported provider found"

  /** The client a provider name selects. */
  function SelectClient(provider: string): (r: Result<Client>)
    ensures r.Err? <==> provider !in {"ollama", "openai", "lm-studio"}
    ensures r.Err? ==> r.message == NoProvider
  {
    if provider == "ollama" then Ok(OllamaGenerate)
    else if provider == "openai" || provider == "lm-studio" then Ok(OpenAiChat)
    else Err(NoProvider)
  }

  /** `getModelResponse`. */
  function GetModelResponse(provider: string, req: Request, backend: Backend): (r: Result<string>)
    ensures provider !in {"ollama", "openai", "lm-studio"} ==> r == Err(NoProvider)
    ensures provider == "ollama" ==> r == backend(OllamaGenerate, req)
    ensures provider == "openai" || provider == "lm-studio" ==> r == backend(OpenAiChat, req)
  {
    match SelectClient(provider)
    case Ok(client) => backend(client, req)
    case Err(m) => Err(m)
  }
}

=== FILE: queue.dfy ===
/** The renderer's file queue: adding the files chosen or dropped, removing
    one entry or all of them, and `renameAllFiles`, which sends every entry
    that is pending at the start to the main process's `rename-file`
    handler one after the other and records each reply in the entry. The
    handler is given: its reply to the n-th call. */
module Queue {
  import opened Results
  import opened JsText
  import opened Paths
  import opened Settings
  import opened RenamePipeline

  datatype Status = Pending | Processing | Success | Error

  /** One queue entry: the file as chosen (its path, name and extension),
      its status, and the new name or error message once it has a reply. */
  datatype QueueItem = QueueItem(
    path: string,
    name: string,
    ext: string,
    status: Status,
    newName: Option<string>,
    error: Option<string>)

  /** A file as it enters the queue. */
  function NewItem(f: FileRef): QueueItem {
    QueueItem(f.path, f.name, f.ext, Pending, None, None)
  }

  /** Whether some entry has the given path (`fileQueue.some(f => f.path === p)`). */
  predicate HasPath(q: seq<QueueItem>, p: string) {
    exists j :: 0 <= j < |q| && q[j].path == p
  }

  /** No two entries share a path. */
  predicate DistinctPaths(q: seq<QueueItem>) {
    forall i, j :: 0 <= i < j < |q| ==> q[i].path != q[j].path
  }

  /** The incoming files whose path is not yet in the queue, in order. */
  function NewFiles(q: seq<QueueItem>, files: seq<FileRef>): (r: seq<FileRef>)
    ensures |r| <= |files|
    ensures forall f :: f in r <==> f in files && !HasPath(q, f.path)
    ensures (forall i :: 0 <= i < |files| ==> HasPath(q, files[i].path)) ==> r == []
  {
    if files == [] then []
    else
      var rest := NewFiles(q, files[1..]);
      assert forall f :: f in files <==> f == files[0] || f in files[1..];
      if HasPath(q, files[0].path) then rest else [files[0]] + rest
  }

  /** `addFilesToQueue`: the new files are appended as pending entries
      without a new name; the entries already queued are untouched. */
  function AddFilesToQueue(q: seq<QueueItem>, files: seq<FileRef>): (r: seq<QueueItem>)
    ensures |q| <= |r| <= |q| + |files|
    ensures r[..|q|] == q
    ensures forall i :: |q| <= i < |r| ==>
      r[i].status == Pending && r[i].newName == None && !HasPath(q, r[i].path)
  {
    var newFiles := NewFiles(q, files);
    var added := seq(|newFiles|, i requires 0 <= i < |newFiles| => NewItem(newFiles[i]));
    assert forall i :: 0 <= i < |added| ==> added[i].path == newFiles[i].path && newFiles[i] in newFiles;
    assert (q + added)[..|q|] == q;
    q + added
  }

  /** A file is queued afresh exactly when its path was not there yet. */
  lemma AddedExactly(q: seq<QueueItem>, files: seq<FileRef>, f: FileRef)
    ensures NewItem(f) in AddFilesToQueue(q, files)[|q|..] <==> f in files && !HasPath(q, f.path)
  {
    var added := NewFiles(q, files);
    var r := AddFilesToQueue(q, files);
    assert r[|q|..] == seq(|added|, i requires 0 <= i < |added| => NewItem(added[i]));
    if NewItem(f) in r[|q|..] {
      var i :| 0 <= i < |r[|q|..]| && r[|q|..][i] == NewItem(f);
      assert added[i] == f;
    }
    if f in files && !HasPath(q, f.path) {
      var i :| 0 <= i < |added| && added[i] == f;
      assert r[|q|..][i] == NewItem(f);
    }
  }

  /** One file is kept exactly when its path is not queued. */
  lemma NewFilesOfOne(q: seq<QueueItem>, f: FileRef)
    ensures NewFiles(q, [f]) == if HasPath(q, f.path) then [] else [f]
  {
    assert [f][1..] == [];
  }

  /** The filter works file by file and keeps the incoming order: filtering
      two batches one after the other is filtering them joined. Together
      with `NewFilesOfOne` this determines `NewFiles` completely. */
  lemma {:induction false} NewFilesConcat(q: seq<QueueItem>, a: seq<FileRef>, b: seq<FileRef>)
    ensures NewFiles(q, a + b) == NewFiles(q, a) + NewFiles(q, b)
    decreases |a|
  {
    if a == [] {
      assert a + b == b;
    } else {
      assert (a + b)[0] == a[0];
      assert (a + b)[1..] == a[1..] + b;
      NewFilesConcat(q, a[1..], b);
    }
  }

  /** The entries `addFilesToQueue` appends: one pending entry per new file. */
  lemma AppendedEntries(q: seq<QueueItem>, files: seq<FileRef>)
    ensures var added := NewFiles(q, files); var r := AddFilesToQueue(q, files);
      |r| == |q| + |added| && r[..|q|] == q
      && forall i :: 0 <= i < |added| ==> r[|q| + i] == NewItem(added[i])
  {
  }

  /** The order of the incoming files is kept: the entries appended for a
      batch `a + b` are those appended for `a` followed by those for `b`. */
  lemma AddedInOrder(q: seq<QueueItem>, a: seq<FileRef>, b: seq<FileRef>)
    ensures AddFilesToQueue(q, a + b) == AddFilesToQueue(q, a) + AddFilesToQueue(q, b)[|q|..]
  {
    NewFilesConcat(q, a, b);
    var na, nb := NewFiles(q, a), NewFiles(q, b);
    var r, ra, rb := AddFilesToQueue(q, a + b), AddFilesToQueue(q, a), AddFilesToQueue(q, b);
    AppendedEntries(q, a + b);
    AppendedEntries(q, a);
    AppendedEntries(q, b);
    var t := ra + rb[|q|..];
    assert |r| == |t|;
    forall i | 0 <= i < |r|
      ensures r[i] == t[i]
    {
      if i < |q| {
        assert r[i] == r[..|q|][i] == ra[..|q|][i];
      } else if i < |q| + |na| {
        assert (na + nb)[i - |q|] == na[i - |q|];
      } else {
        assert (na + nb)[i - |q|] == nb[i - |q| - |na|];
        assert t[i] == rb[i - |na|];
      }
    }
  }

  /** A single file is appended exactly when its path is not queued. */
  lemma AddedOne(q: seq<QueueItem>, f: FileRef)
    ensures AddFilesToQueue(q, [f]) == if HasPath(q, f.path) then q else q + [NewItem(f)]
  {
    NewFilesOfOne(q, f);
    AppendedEntries(q, [f]);
  }

  /** Adding the same files twice adds them once. */
  lemma AddTwiceIsAddOnce(q: seq<QueueItem>, files: seq<FileRef>)
    ensures AddFilesToQueue(AddFilesToQueue(q, files), files) == AddFilesToQueue(q, files)
  {
    var r := AddFilesToQueue(q, files);
    forall f | f in files
      ensures HasPath(r, f.path)
    {
      if !HasPath(q, f.path) {
        AddedExactly(q, files, f);
        var i :| 0 <= i < |r[|q|..]| && r[|q|..][i] == NewItem(f);
        assert r[|q| + i].path == f.path;
      } else {
        var j :| 0 <= j < |q| && q[j].path == f.path;
        assert r[j] == q[j];
      }
    }
    assert NewFiles(r, files) == [] by {
      forall i | 0 <= i < |files|
        ensures HasPath(r, files[i].path)
      {
        assert files[i] in files;
      }
    }
    assert r + [] == r;
  }

  /** No two files of the batch share a path. */
  predicate DistinctFiles(files: seq<FileRef>) {
    forall i, j :: 0 <= i < j < |files| ==> files[i].path != files[j].path
  }

  /** A file whose path none of `rest` has can go in front of it. */
  lemma ConsDistinct(f: FileRef, rest: seq<FileRef>)
    requires DistinctFiles(rest) && forall g :: g in rest ==> g.path != f.path
    ensures DistinctFiles([f] + rest)
  {
    var r := [f] + rest;
    forall i, j | 0 <= i < j < |r|
      ensures r[i].path != r[j].path
    {
      assert r[j] == rest[j - 1];
      if i > 0 {
        assert r[i] == rest[i - 1];
      }
    }
  }

  /** The files after the first of a batch without duplicates do not share its path. */
  lemma TailAvoidsHead(files: seq<FileRef>)
    requires files != [] && DistinctFiles(files)
    ensures DistinctFiles(files[1..])
    ensures forall g :: g in files[1..] ==> g.path != files[0].path
  {
    forall g | g in files[1..]
      ensures g.path != files[0].path
    {
      var k :| 0 <= k < |files[1..]| && files[1..][k] == g;
      assert files[k + 1] == g;
    }
  }

  lemma {:induction false} NewFilesDistinct(q: seq<QueueItem>, files: seq<FileRef>)
    requires DistinctFiles(files)
    ensures DistinctFiles(NewFiles(q, files))
  {
    if files != [] {
      TailAvoidsHead(files);
      NewFilesDistinct(q, files[1..]);
      if !HasPath(q, files[0].path) {
        ConsDistinct(files[0], NewFiles(q, files[1..]));
      }
    }
  }

  /** A queue without duplicate paths keeps that property when a batch
      without duplicate paths is added. */
  lemma AddKeepsPathsDistinct(q: seq<QueueItem>, files: seq<FileRef>)
    requires DistinctPaths(q) && DistinctFiles(files)
    ensures DistinctPaths(AddFilesToQueue(q, files))
  {
    var added := NewFiles(q, files);
    NewFilesDistinct(q, files);
    var r := AddFilesToQueue(q, files);
    forall i, j | 0 <= i < j < |r|
      ensures r[i].path != r[j].path
    {
      if j >= |q| && i < |q| {
        assert r[i] == q[i];
      }
      if i >= |q| {
        assert r[i].path == added[i - |q|].path && r[j].path == added[j - |q|].path;
      }
    }
  }

  /** `removeFromQueue(index)`: `splice(index, 1)`, so a negative index counts
      back from the end and an index past the end removes nothing. */
  function RemoveFromQueue(q: seq<QueueItem>, index: int): (r: seq<QueueItem>)
    ensures var k := RelativeIndex(index, |q|);
      && (k < |q| ==> |r| == |q| - 1 && r == q[..k] + q[k + 1..])
      && (k == |q| ==> r == q)
  {
    var k := RelativeIndex(index, |q|);
    if k < |q| then q[..k] + q[k + 1..] else q
  }

  /** Removing the entry at an index in range takes out exactly that entry:
      the ones before it keep their places and the ones after it move up by
      one, in the same order. */
  lemma RemoveExactlyOne(q: seq<QueueItem>, i: int)
    requires 0 <= i < |q|
    ensures var r := RemoveFromQueue(q, i);
      && |r| == |q| - 1
      && (forall j :: 0 <= j < i ==> r[j] == q[j])
      && (forall j :: i <= j < |r| ==> r[j] == q[j + 1])
      && multiset(r) + multiset{q[i]} == multiset(q)
  {
    var r := RemoveFromQueue(q, i);
    assert q == q[..i] + [q[i]] + q[i + 1..];
  }

  /** Removing an entry keeps the paths distinct. */
  lemma RemoveKeepsPathsDistinct(q: seq<QueueItem>, index: int)
    requires DistinctPaths(q)
    ensures DistinctPaths(RemoveFromQueue(q, index))
  {
    var k := RelativeIndex(index, |q|);
    if k < |q| {
      RemoveExactlyOne(q, k);
      var r := RemoveFromQueue(q, index);
      forall a, b | 0 <= a < b < |r|
        ensures r[a].path != r[b].path
      {
        var a' := if a < k then a else a + 1;
        var b' := if b < k then b else b + 1;
        assert r[a] == q[a'] && r[b] == q[b'];
      }
    }
  }

  /** `clearQueue`. */
  function ClearQueue(q: seq<QueueItem>): (r: seq<QueueItem>)
    ensures |r| == 0
  {
    []
  }

  /** What `window.electronAPI.renameFile` gives back: the handler's reply,
      or an error thrown across the IPC boundary. */
  datatype IpcReply = Answered(result: RenameResult) | Threw(message: string)

  /** How a reply changes the entry it is for: a success records the new name
      and the new path, a failure or a thrown error the message. */
  function ApplyReply(item: QueueItem, reply: IpcReply): (r: QueueItem)
    ensures r.name == item.name && r.ext == item.ext
    ensures r.status == Success <==> reply.Answered? && reply.result.Renamed?
    ensures r.status == Success ==>
      r.newName == Some(reply.result.newName) && r.path == reply.result.newPath && r.error == item.error
    ensures r.status != Success ==>
      && r.status == Error && r.path == item.path && r.newName == item.newName
      && r.error == Some(if reply.Threw? then reply.message else reply.result.error)
  {
    match reply
    case Answered(Renamed(_, newName, newPath)) => item.(status := Success, newName := Some(newName), path := newPath)
    case Answered(NotRenamed(_, error)) => item.(status := Error, error := Some(error))
    case Threw(message) => item.(status := Error, error := Some(message))
  }

  /** The indices of the pending entries at or after `from`, in increasing order. */
  function PendingFrom(q: seq<QueueItem>, from: nat): (r: seq<nat>)
    requires from <= |q|
    ensures forall k :: 0 <= k < |r| ==> from <= r[k] < |q| && q[r[k]].status == Pending
    ensures forall k, l :: 0 <= k < l < |r| ==> r[k] < r[l]
    ensures forall i :: from <= i < |q| && q[i].status == Pending ==> i in r
    decreases |q| - from
  {
    if from == |q| then []
    else
      var rest := PendingFrom(q, from + 1);
      if q[from].status == Pending then
        [from] + rest
      else rest
  }

  /** The snapshot `fileQueue.filter(f => f.status === 'pending')`, by index. */
  function PendingIndices(q: seq<QueueItem>): seq<nat> {
    PendingFrom(q, 0)
  }

  /** Valid, strictly increasing indices into a queue of length `n`. */
  predicate Ascending(ps: seq<nat>, n: nat) {
    && (forall k :: 0 <= k < |ps| ==> ps[k] < n)
    && (forall k, l :: 0 <= k < l < |ps| ==> ps[k] < ps[l])
  }

  /** `fileQueue.findIndex(f => f.path === p)`. */
  function FindIndex(q: seq<QueueItem>, p: string): (i: int)
    ensures -1 <= i < |q|
    ensures i == -1 <==> !HasPath(q, p)
    ensures 0 <= i ==> q[i].path == p && forall j :: 0 <= j < i ==> q[j].path != p
  {
    if q == [] then -1
    else if q[0].path == p then 0
    else
      var i := FindIndex(q[1..], p);
      assert HasPath(q, p) ==> HasPath(q[1..], p) by {
        if HasPath(q, p) {
          var j :| 0 <= j < |q| && q[j].path == p;
          assert q[1..][j - 1] == q[j];
        }
      }
      if i == -1 then -1 else i + 1
  }

  /** The queue as `renameAllFiles` leaves it, with the paths it sent, in order. */
  datatype Batch = Batch(queue: seq<QueueItem>, calls: seq<string>)

  /** One pass of the loop for the snapshot entry at `i`: look its current
      path up, mark that entry as processing, send the path and record the
      reply to this call in the entry found. */
  function Step(b: Batch, i: nat, reply: nat -> IpcReply): (r: Batch)
    requires i < |b.queue|
    ensures |r.queue| == |b.queue|
    ensures r.calls == b.calls + [b.queue[i].path]
  {
    var p := b.queue[i].path;
    var index := FindIndex(b.queue, p);
    if index < 0 then b
    else
      var marked := b.queue[index := b.queue[index].(status := Processing)];
      Batch(marked[index := ApplyReply(marked[index], reply(|b.calls|))], b.calls + [p])
  }

  /** The loop over the snapshot from its `k`-th entry on. */
  function Steps(b: Batch, pending: seq<nat>, k: nat, reply: nat -> IpcReply): (r: Batch)
    requires k <= |pending| && forall m :: 0 <= m < |pending| ==> pending[m] < |b.queue|
    ensures |r.queue| == |b.queue|
    ensures |r.calls| == |b.calls| + |pending| - k
    ensures r.calls[..|b.calls|] == b.calls
    decreases |pending| - k
  {
    if k == |pending| then b
    else
      var r := Steps(Step(b, pending[k], reply), pending, k + 1, reply);
      assert r.calls[..|b.calls|] == r.calls[..|b.calls| + 1][..|b.calls|];
      r
  }

  /** Whether `renameAllFiles` stops before the loop because Ollama, the
      local provider it needs, is down. */
  predicate OllamaNeededAndDown(config: Config, ollamaRunning: bool) {
    config.mode == "local" && config.provider == "ollama" && !ollamaRunning
  }

  /** `renameAllFiles` as a function: nothing happens without pending entries
      or when Ollama is needed and not running; otherwise every entry pending
      at the start is sent once, in queue order. */
  function RenameAllRun(q: seq<QueueItem>, config: Config, ollamaRunning: bool, reply: nat -> IpcReply): Batch {
    var pending := PendingIndices(q);
    if |pending| == 0 then Batch(q, [])
    else if OllamaNeededAndDown(config, ollamaRunning) then Batch(q, [])
    else Steps(Batch(q, []), pending, 0, reply)
  }

  /** The loop body of `renameAllFiles` for the snapshot entry at `i`. */
  method SendOne(q: seq<QueueItem>, calls: seq<string>, i: nat, reply: nat -> IpcReply)
    returns (r: seq<QueueItem>, calls': seq<string>)
    requires i < |q|
    ensures Batch(r, calls') == Step(Batch(q, calls), i, reply)
  {
    r, calls' := q, calls;
    var file := q[i];
    var index := FindIndex(q, file.path);
    if index != -1 {
      r := r[index := r[index].(status := Processing)];
      calls' := calls' + [file.path];
      r := r[index := ApplyReply(r[index], reply(|calls'| - 1))];
    }
  }

  /** `renameAllFiles`, looping over the snapshot of pending entries; the
      handler's reply to the n-th call is `reply(n)`. */
  method RenameAll(q: seq<QueueItem>, config: Config, ollamaRunning: bool, reply: nat -> IpcReply)
    returns (r: seq<QueueItem>, calls: seq<string>)
    ensures Batch(r, calls) == RenameAllRun(q, config, ollamaRunning, reply)
    ensures |r| == |q|
  {
    var pending := PendingIndices(q);
    if |pending| == 0 {
      return q, [];
    }
    if config.mode == "local" && config.provider == "ollama" {
      if !ollamaRunning {
        return q, [];
      }
    }
    r, calls := q, [];
    var k := 0;
    while k < |pending|
      invariant 0 <= k <= |pending|
      invariant |r| == |q| && |calls| == k
      invariant Steps(Batch(r, calls), pending, k, reply) == RenameAllRun(q, config, ollamaRunning, reply)
    {
      r, calls := SendOne(r, calls, pending[k], reply);
      k := k + 1;
    }
  }

  /** With no pending entry, or with Ollama needed and down, nothing is sent
      and the queue is unchanged. */
  lemma NothingToDo(q: seq<QueueItem>, config: Config, ollamaRunning: bool, reply: nat -> IpcReply)
    requires (forall i :: 0 <= i < |q| ==> q[i].status != Pending) || OllamaNeededAndDown(config, ollamaRunning)
    ensures RenameAllRun(q, config, ollamaRunning, reply) == Batch(q, [])
  {
  }

  /** Otherwise exactly one call is made per entry that was pending at the
      start, whatever the replies: a failure never stops the loop. */
  lemma OneCallPerPendingEntry(q: seq<QueueItem>, config: Config, ollamaRunning: bool, reply: nat -> IpcReply)
    requires !OllamaNeededAndDown(config, ollamaRunning)
    ensures |RenameAllRun(q, config, ollamaRunning, reply).calls| == |PendingIndices(q)|
    ensures |RenameAllRun(q, config, ollamaRunning, reply).queue| == |q|
  {
  }

  /** A cleared queue has nothing to rename. */
  lemma ClearedQueueRenamesNothing(q: seq<QueueItem>, config: Config, ollamaRunning: bool, reply: nat -> IpcReply)
    ensures RenameAllRun(ClearQueue(q), config, ollamaRunning, reply) == Batch([], [])
  {
  }

  /** The queue after the replies to the first `k` snapshot entries were
      recorded in those entries. */
  function Applied(q: seq<QueueItem>, pending: seq<nat>, reply: nat -> IpcReply, k: nat): (r: seq<QueueItem>)
    requires k <= |pending| && Ascending(pending, |q|)
    ensures |r| == |q|
  {
    if k == 0 then q
    else Applied(q, pending, reply, k - 1)[pending[k - 1] := ApplyReply(q[pending[k - 1]], reply(k - 1))]
  }

  /** The paths of the first `k` snapshot entries, in order. */
  function SentPaths(q: seq<QueueItem>, pending: seq<nat>, k: nat): (r: seq<string>)
    requires k <= |pending| && Ascending(pending, |q|)
    ensures |r| == k && forall m :: 0 <= m < k ==> r[m] == q[pending[m]].path
  {
    if k == 0 then [] else SentPaths(q, pending, k - 1) + [q[pending[k - 1]].path]
  }

  /** An entry the first `k` replies were not for is as it was; the entry of
      the `m`-th snapshot position, `m < k`, holds the `m`-th reply. */
  lemma {:induction false} AppliedAt(q: seq<QueueItem>, pending: seq<nat>, reply: nat -> IpcReply, k: nat, j: nat)
    requires k <= |pending| && Ascending(pending, |q|) && j < |q|
    ensures (forall m :: 0 <= m < k ==> pending[m] != j) ==> Applied(q, pending, reply, k)[j] == q[j]
    ensures forall m :: 0 <= m < k && pending[m] == j ==>
      Applied(q, pending, reply, k)[j] == ApplyReply(q[j], reply(m))
  {
    if k > 0 {
      AppliedAt(q, pending, reply, k - 1, j);
    }
  }

  /** An assumption about the replies: none renames a file onto the path of
      another queued entry. The handler does not guarantee it: it avoids the
      plain name when that exists on disk, but never checks the timestamped
      name it falls back to, and a queued path need not exist on disk. */
  predicate FreshNewPaths(q: seq<QueueItem>, pending: seq<nat>, reply: nat -> IpcReply) {
    forall m, j :: 0 <= m < |pending| && 0 <= j < |q| && j != pending[m] ==>
      !(reply(m).Answered? && reply(m).result.Renamed? && reply(m).result.newPath == q[j].path)
  }

  /** The loop's step, when paths are distinct and new paths fresh, finds the
      very entry it took from the snapshot. */
  lemma StepFindsItsEntry(q: seq<QueueItem>, pending: seq<nat>, reply: nat -> IpcReply, k: nat)
    requires k < |pending| && Ascending(pending, |q|)
    requires DistinctPaths(q) && FreshNewPaths(q, pending, reply)
    ensures var b := Batch(Applied(q, pending, reply, k), SentPaths(q, pending, k));
      Step(b, pending[k], reply) ==
        Batch(Applied(q, pending, reply, k + 1), SentPaths(q, pending, k + 1))
  {
    var a := Applied(q, pending, reply, k);
    var p := pending[k];
    AppliedAt(q, pending, reply, k, p);
    assert a[p] == q[p];
    forall j | 0 <= j < p
      ensures a[j].path != q[p].path
    {
      AppliedAt(q, pending, reply, k, j);
      if m :| 0 <= m < k && pending[m] == j {
        assert a[j] == ApplyReply(q[j], reply(m));
      } else {
        assert a[j] == q[j];
      }
    }
    assert FindIndex(a, q[p].path) == p;
  }

  /** So the loop from position `k` of the snapshot continues from `k + 1`
      with the `k`-th reply applied and its path sent. */
  lemma StepsAdvance(q: seq<QueueItem>, pending: seq<nat>, reply: nat -> IpcReply, k: nat)
    requires k < |pending| && Ascending(pending, |q|)
    requires DistinctPaths(q) && FreshNewPaths(q, pending, reply)
    ensures Steps(Batch(Applied(q, pending, reply, k), SentPaths(q, pending, k)), pending, k, reply) ==
      Steps(Batch(Applied(q, pending, reply, k + 1), SentPaths(q, pending, k + 1)), pending, k + 1, reply)
  {
    StepFindsItsEntry(q, pending, reply, k);
  }

  lemma {:induction false} StepsFromApplied(q: seq<QueueItem>, pending: seq<nat>, reply: nat -> IpcReply, k: nat)
    requires k <= |pending| && Ascending(pending, |q|)
    requires DistinctPaths(q) && FreshNewPaths(q, pending, reply)
    ensures Steps(Batch(Applied(q, pending, reply, k), SentPaths(q, pending, k)), pending, k, reply) ==
      Batch(Applied(q, pending, reply, |pending|), SentPaths(q, pending, |pending|))
    decreases |pending| - k
  {
    var b := Batch(Applied(q, pending, reply, k), SentPaths(q, pending, k));
    if k < |pending| {
      StepsAdvance(q, pending, reply, k);
      StepsFromApplied(q, pending, reply, k + 1);
    } else {
      assert Steps(b, pending, k, reply) == b;
    }
  }

  /** With distinct paths and fresh new paths, the run sends the paths of the
      entries pending at the start, in queue order, records the n-th reply in
      the n-th of those entries and leaves every other entry as it was. */
  lemma RenameAllInOrder(q: seq<QueueItem>, config: Config, ollamaRunning: bool, reply: nat -> IpcReply)
    requires !OllamaNeededAndDown(config, ollamaRunning)
    requires DistinctPaths(q) && FreshNewPaths(q, PendingIndices(q), reply)
    ensures var pending := PendingIndices(q);
      var b := RenameAllRun(q, config, ollamaRunning, reply);
      && |b.calls| == |pending|
      && (forall m :: 0 <= m < |pending| ==> b.calls[m] == q[pending[m]].path)
      && (forall m :: 0 <= m < |pending| ==> b.queue[pending[m]] == ApplyReply(q[pending[m]], reply(m)))
      && (forall j :: 0 <= j < |q| && q[j].status != Pending ==> b.queue[j] == q[j])
  {
    var pending := PendingIndices(q);
    if |pending| > 0 {
      StepsFromApplied(q, pending, reply, 0);
    }
    forall m | 0 <= m < |pending|
      ensures RenameAllRun(q, config, ollamaRunning, reply).queue[pending[m]] == ApplyReply(q[pending[m]], reply(m))
    {
      AppliedAt(q, pending, reply, |pending|, pending[m]);
    }
    forall j | 0 <= j < |q| && q[j].status != Pending
      ensures RenameAllRun(q, config, ollamaRunning, reply).queue[j] == q[j]
    {
      AppliedAt(q, pending, reply, |pending|, j);
    }
  }

  /** Why the characterisation above assumes distinct paths: the loop looks
      an entry up by path, so when an earlier entry shares the path of a
      pending one, the reply lands on the earlier entry, even one that is
      not pending, and the pending entry stays pending. */
  lemma DuplicatePathUpdatesEarlierEntry()
    ensures var failed := QueueItem("/d/a.txt", "a.txt", ".txt", Error, None, Some("EBUSY"));
      var waiting := QueueItem("/d/a.txt", "a.txt", ".txt", Pending, None, None);
      var reply := (n: nat) => Answered(Renamed("a.txt", "note.txt", "/d/note.txt"));
      var b := RenameAllRun([failed, waiting], Config("local", "openai", "", "", "", "", "", 25, "", None, None), true, reply);
      && b.calls == ["/d/a.txt"]
      && b.queue[0].status == Success && b.queue[0].path == "/d/note.txt"
      && b.queue[1] == waiting
  {
    var failed := QueueItem("/d/a.txt", "a.txt", ".txt", Error, None, Some("EBUSY"));
    var waiting := QueueItem("/d/a.txt", "a.txt", ".txt", Pending, None, None);
    var q := [failed, waiting];
    assert PendingIndices(q) == [1];
    assert FindIndex(q, "/d/a.txt") == 0;
  }
}

=== FILE: results.dfy ===
/** Failure-carrying values. A JavaScript `throw` of an `Error` becomes `Err`
    carrying the error's `message`, which is all the renamer ever reads of it. */
module Results {

  datatype Option<+T> = None | Some(value: T)

  datatype Result<+T> = Ok(value: T) | Err(message: string) {

    predicate IsFailure() {
      Err?
    }

    function PropagateFailure<U>(): Result<U>
      requires Err?
    {
      Err(message)
    }

    function Extract(): T
      requires Ok?
    {
      value
    }
  }
}

=== FILE: safe_rename.dfy ===
/** `safeRename`: a rename that retries while the file is locked and, after
    the last locked attempt, falls back to copying the file and deleting the
    original. The file system is a map from path to contents; each primitive
    fails with ENOENT when its source is missing, and any other failure
    (a lock, a permission error) is injected by a script. The waits between
    attempts do not change the outcome and are not modelled. */
module SafeRename {
  import opened Results

  type FileSystem = map<string, seq<bv8>>

  /** A Node file-system error: its `code` and its `message`. */
  datatype FsError = FsError(code: string, message: string)

  /** What the script injects into one primitive call. */
  datatype Fault = NoFault | Fault(error: FsError)

  /** Injected faults: one per rename attempt (attempts past the end of
      `renames` get none), and one for each call of the fallback. */
  datatype Script = Script(renames: seq<Fault>, copy: Fault, unlinkOld: Fault, unlinkNew: Fault)

  /** The primitive calls `safeRename` makes, in order. */
  datatype Call = RenameCall(from: string, to: string) | CopyCall(from: string, to: string) | UnlinkCall(path: string)

  /** The outcome of one primitive: its error, if any, and the file system after it. */
  datatype CallResult = CallResult(error: Option<FsError>, fs: FileSystem)

  /** The outcome of `safeRename`: `None` when it resolves, the thrown error
      otherwise, the final file system and the primitive calls it made. */
  datatype Run = Run(error: Option<FsError>, fs: FileSystem, calls: seq<Call>)

  /** Only these two codes mean "locked, try again". */
  predicate IsLock(e: FsError) {
    e.code == "EPERM" || e.code == "EBUSY"
  }

  /** Node's error for a missing file: the call names its one path. */
  function Missing(syscall: string, path: string): (e: FsError)
    ensures !IsLock(e)
  {
    FsError("ENOENT", "ENOENT: no such file or directory, " + syscall + " '" + path + "'")
  }

  /** Node's error for a missing source of a two-path call (`rename`,
      `copyfile`): the message names the source and then the destination. */
  function MissingSource(syscall: string, from: string, to: string): (e: FsError)
    ensures !IsLock(e)
  {
    FsError("ENOENT", "ENOENT: no such file or directory, " + syscall + " '" + from + "' -> '" + to + "'")
  }

  function InjectedRename(script: Script, attempt: nat): Fault {
    if attempt < |script.renames| then script.renames[attempt] else NoFault
  }

  /** `fs` after moving the contents of `from` to `to`. */
  function Moved(fs: FileSystem, from: string, to: string): FileSystem
    requires from in fs
  {
    (fs - {from})[to := fs[from]]
  }

  /** `fs.rename`: fails without effect, or moves the file. */
  function Rename(fs: FileSystem, from: string, to: string, f: Fault): (s: CallResult)
    ensures s.error.Some? ==> s.fs == fs
    ensures s.error.None? <==> f.NoFault? && from in fs
    ensures s.error.None? ==> from in fs && s.fs == Moved(fs, from, to)
    ensures f.Fault? ==> s.error == Some(f.error)
    ensures f.NoFault? && from !in fs ==> s.error == Some(MissingSource("rename", from, to))
  {
    if f.Fault? then CallResult(Some(f.error), fs)
    else if from !in fs then CallResult(Some(MissingSource("rename", from, to)), fs)
    else CallResult(None, Moved(fs, from, to))
  }

  /** `fs.copyFile`: fails without effect, or writes a copy of `from` at `to`. */
  function Copy(fs: FileSystem, from: string, to: string, f: Fault): (s: CallResult)
    ensures s.error.Some? ==> s.fs == fs
    ensures s.error.None? <==> f.NoFault? && from in fs
    ensures s.error.None? ==> from in fs && s.fs == fs[to := fs[from]]
    ensures f.Fault? ==> s.error == Some(f.error)
    ensures f.NoFault? && from !in fs ==> s.error == Some(MissingSource("copyfile", from, to))
  {
    if f.Fault? then CallResult(Some(f.error), fs)
    else if from !in fs then CallResult(Some(MissingSource("copyfile", from, to)), fs)
    else CallResult(None, fs[to := fs[from]])
  }

  /** `fs.unlink`: fails without effect, or removes `path`. */
  function Unlink(fs: FileSystem, path: string, f: Fault): (s: CallResult)
    ensures s.error.Some? ==> s.fs == fs
    ensures s.error.None? <==> f.NoFault? && path in fs
    ensures s.error.None? ==> s.fs == fs - {path}
    ensures f.Fault? ==> s.error == Some(f.error)
    ensures f.NoFault? && path !in fs ==> s.error == Some(Missing("unlink", path))
  {
    if f.Fault? then CallResult(Some(f.error), fs)
    else if path !in fs then CallResult(Some(Missing("unlink", path)), fs)
    else CallResult(None, fs - {path})
  }

  function Prepend(calls: seq<Call>, run: Run): Run {
    Run(run.error, run.fs, calls + run.calls)
  }

  /** `n` rename calls from `oldPath` to `newPath`. */
  function Renames(oldPath: string, newPath: string, n: nat): (cs: seq<Call>)
    ensures |cs| == n && forall k :: 0 <= k < n ==> cs[k] == RenameCall(oldPath, newPath)
  {
    seq(n, _ => RenameCall(oldPath, newPath))
  }

  /** The copy-then-delete fallback after the last rename failed with the
      lock error `err`. Whatever goes wrong in it, `err` is what surfaces. */
  function Fallback(fs: FileSystem, oldPath: string, newPath: string, err: FsError, script: Script): Run {
    var c := Copy(fs, oldPath, newPath, script.copy);
    if c.error.Some? then Run(Some(err), fs, [CopyCall(oldPath, newPath)])
    else
      var u := Unlink(c.fs, oldPath, script.unlinkOld);
      if u.error.None? then Run(None, u.fs, [CopyCall(oldPath, newPath), UnlinkCall(oldPath)])
      else
        var v := Unlink(c.fs, newPath, script.unlinkNew);
        Run(Some(err), v.fs, [CopyCall(oldPath, newPath), UnlinkCall(oldPath), UnlinkCall(newPath)])
  }

  /** The outcome of rename attempt `i`. Failed attempts leave the file
      system alone, so every attempt starts from the same `fs`. */
  function RenameAttempt(fs: FileSystem, oldPath: string, newPath: string, script: Script, i: nat): CallResult {
    Rename(fs, oldPath, newPath, InjectedRename(script, i))
  }

  /** The loop of `safeRename` from attempt `i` on. */
  function Attempts(fs: FileSystem, oldPath: string, newPath: string, retries: int, script: Script, i: nat): Run
    decreases retries - i
  {
    if i >= retries then Run(None, fs, [])
    else
      var r := RenameAttempt(fs, oldPath, newPath, script, i);
      if r.error.None? then Run(None, r.fs, [RenameCall(oldPath, newPath)])
      else if !IsLock(r.error.value) then Run(r.error, fs, [RenameCall(oldPath, newPath)])
      else if i == retries - 1 then Prepend([RenameCall(oldPath, newPath)], Fallback(fs, oldPath, newPath, r.error.value, script))
      else Prepend([RenameCall(oldPath, newPath)], Attempts(fs, oldPath, newPath, retries, script, i + 1))
  }

  /** The reference outcome of `safeRename(oldPath, newPath, retries)`. */
  function SafeRenameRun(fs: FileSystem, oldPath: string, newPath: string, retries: int, script: Script): Run {
    Attempts(fs, oldPath, newPath, retries, script, 0)
  }

  /** `safeRename` as the source writes it: a counted loop of rename
      attempts with the fallback inside the last locked attempt. */
  method SafeRename(fs: FileSystem, oldPath: string, newPath: string, retries: int, script: Script)
    returns (error: Option<FsError>, fs': FileSystem, calls: seq<Call>)
    ensures Run(error, fs', calls) == SafeRenameRun(fs, oldPath, newPath, retries, script)
  {
    calls := [];
    var i := 0;
    while i < retries
      invariant 0 <= i
      invariant SafeRenameRun(fs, oldPath, newPath, retries, script) == Prepend(calls, Attempts(fs, oldPath, newPath, retries, script, i))
      decreases retries - i
    {
      var r := Rename(fs, oldPath, newPath, InjectedRename(script, i));
      calls := calls + [RenameCall(oldPath, newPath)];
      if r.error.None? {
        return None, r.fs, calls;
      }
      var err := r.error.value;
      if IsLock(err) {
        if i == retries - 1 {
          var e, f, cs := CopyThenDelete(fs, oldPath, newPath, err, script);
          return e, f, calls + cs;
        }
      } else {
        return Some(err), fs, calls;
      }
      assert Attempts(fs, oldPath, newPath, retries, script, i) ==
        Prepend([RenameCall(oldPath, newPath)], Attempts(fs, oldPath, newPath, retries, script, i + 1));
      i := i + 1;
    }
    return None, fs, calls;
  }

  /** The fallback as the source writes it: copy, delete the original, and
      on a failed deletion delete the copy again. */
  method CopyThenDelete(fs: FileSystem, oldPath: string, newPath: string, err: FsError, script: Script)
    returns (error: Option<FsError>, fs': FileSystem, calls: seq<Call>)
    ensures Run(error, fs', calls) == Fallback(fs, oldPath, newPath, err, script)
  {
    var c := Copy(fs, oldPath, newPath, script.copy);
    calls := [CopyCall(oldPath, newPath)];
    if c.error.Some? {
      return Some(err), fs, calls;
    }
    var u := Unlink(c.fs, oldPath, script.unlinkOld);
    calls := calls + [UnlinkCall(oldPath)];
    if u.error.Some? {
      var v := Unlink(c.fs, newPath, script.unlinkNew);
      calls := calls + [UnlinkCall(newPath)];
      return Some(err), v.fs, calls;
    }
    return None, u.fs, calls;
  }

  /** Attempts `i` up to `j` (exclusive) all failed with a lock error. */
  predicate LockedBetween(fs: FileSystem, oldPath: string, newPath: string, script: Script, i: nat, j: nat) {
    forall t :: i <= t < j ==> RenameAttempt(fs, oldPath, newPath, script, t).error.Some? && IsLock(RenameAttempt(fs, oldPath, newPath, script, t).error.value)
  }

  /** A rename error other than EPERM/EBUSY ends the loop on the spot and is
      rethrown; nothing is copied and the file system is untouched. */
  lemma {:induction false} OtherErrorIsRethrown(fs: FileSystem, oldPath: string, newPath: string, retries: int, script: Script, i: nat, j: nat)
    requires i <= j < retries
    requires LockedBetween(fs, oldPath, newPath, script, i, j)
    requires RenameAttempt(fs, oldPath, newPath, script, j).error.Some? && !IsLock(RenameAttempt(fs, oldPath, newPath, script, j).error.value)
    ensures Attempts(fs, oldPath, newPath, retries, script, i) ==
      Run(RenameAttempt(fs, oldPath, newPath, script, j).error, fs, Renames(oldPath, newPath, j - i + 1))
    decreases j - i
  {
    if i < j {
      OtherErrorIsRethrown(fs, oldPath, newPath, retries, script, i + 1, j);
      assert [RenameCall(oldPath, newPath)] + Renames(oldPath, newPath, j - i) == Renames(oldPath, newPath, j - i + 1);
    }
  }

  /** A missing source is not a lock: the first attempt's ENOENT, naming
      both paths, is rethrown as it is. */
  lemma MissingSourceNamesBothPaths(fs: FileSystem, oldPath: string, newPath: string, retries: int, script: Script)
    requires retries > 0 && oldPath !in fs && InjectedRename(script, 0).NoFault?
    ensures SafeRenameRun(fs, oldPath, newPath, retries, script) ==
      Run(Some(MissingSource("rename", oldPath, newPath)), fs, [RenameCall(oldPath, newPath)])
  {
  }

  /** A successful rename ends the loop at once, with the file moved and
      nothing copied. */
  lemma {:induction false} SuccessReturnsAtOnce(fs: FileSystem, oldPath: string, newPath: string, retries: int, script: Script, i: nat, j: nat)
    requires i <= j < retries
    requires LockedBetween(fs, oldPath, newPath, script, i, j)
    requires RenameAttempt(fs, oldPath, newPath, script, j).error.None?
    ensures oldPath in fs
    ensures Attempts(fs, oldPath, newPath, retries, script, i) == Run(None, Moved(fs, oldPath, newPath), Renames(oldPath, newPath, j - i + 1))
    decreases j - i
  {
    if i < j {
      SuccessReturnsAtOnce(fs, oldPath, newPath, retries, script, i + 1, j);
      assert [RenameCall(oldPath, newPath)] + Renames(oldPath, newPath, j - i) == Renames(oldPath, newPath, j - i + 1);
    }
  }

  /** When every attempt is locked out, all `retries` renames are made and
      then the fallback runs with the last attempt's error. */
  lemma {:induction false} AllLockedFallsBack(fs: FileSystem, oldPath: string, newPath: string, retries: int, script: Script, i: nat)
    requires i < retries
    requires LockedBetween(fs, oldPath, newPath, script, i, retries)
    ensures Attempts(fs, oldPath, newPath, retries, script, i) ==
      Prepend(Renames(oldPath, newPath, retries - i),
              Fallback(fs, oldPath, newPath, RenameAttempt(fs, oldPath, newPath, script, retries - 1).error.value, script))
    decreases retries - i
  {
    if i < retries - 1 {
      AllLockedFallsBack(fs, oldPath, newPath, retries, script, i + 1);
      assert [RenameCall(oldPath, newPath)] + Renames(oldPath, newPath, retries - i - 1) == Renames(oldPath, newPath, retries - i);
    }
  }

  /** Either every attempt is locked out, or there is a first attempt that is not. */
  lemma {:induction false} FirstUnlocked(fs: FileSystem, oldPath: string, newPath: string, script: Script, i: nat, n: nat)
    requires i <= n
    requires LockedBetween(fs, oldPath, newPath, script, 0, i)
    ensures LockedBetween(fs, oldPath, newPath, script, 0, n) ||
      exists j :: 0 <= j < n && LockedBetween(fs, oldPath, newPath, script, 0, j)
        && !(RenameAttempt(fs, oldPath, newPath, script, j).error.Some? && IsLock(RenameAttempt(fs, oldPath, newPath, script, j).error.value))
    decreases n - i
  {
    if i < n {
      var a := RenameAttempt(fs, oldPath, newPath, script, i);
      if a.error.Some? && IsLock(a.error.value) {
        FirstUnlocked(fs, oldPath, newPath, script, i + 1, n);
      }
    }
  }

  /** Every run is one of three shapes: rethrow, success without copy, or
      fallback after exactly `retries` locked renames. At most `retries`
      renames happen, and a copy happens only after the final rename failed
      with EPERM/EBUSY. */
  lemma RunShape(fs: FileSystem, oldPath: string, newPath: string, retries: int, script: Script)
    requires retries >= 1
    ensures var run := SafeRenameRun(fs, oldPath, newPath, retries, script);
      && (CopyCall(oldPath, newPath) in run.calls ==>
            && LockedBetween(fs, oldPath, newPath, script, 0, retries)
            && |run.calls| > retries
            && run.calls[..retries] == Renames(oldPath, newPath, retries)
            && run.calls[retries] == CopyCall(oldPath, newPath))
      && (LockedBetween(fs, oldPath, newPath, script, 0, retries) ==> CopyCall(oldPath, newPath) in run.calls)
      && (CopyCall(oldPath, newPath) !in run.calls ==>
            exists n :: 1 <= n <= retries && run.calls == Renames(oldPath, newPath, n))
  {
    FirstUnlocked(fs, oldPath, newPath, script, 0, retries);
    var run := SafeRenameRun(fs, oldPath, newPath, retries, script);
    if LockedBetween(fs, oldPath, newPath, script, 0, retries) {
      AllLockedFallsBack(fs, oldPath, newPath, retries, script, 0);
      assert run.calls[retries] == CopyCall(oldPath, newPath);
      assert run.calls[..retries] == Renames(oldPath, newPath, retries);
    } else {
      var j :| 0 <= j < retries && LockedBetween(fs, oldPath, newPath, script, 0, j)
        && !(RenameAttempt(fs, oldPath, newPath, script, j).error.Some? && IsLock(RenameAttempt(fs, oldPath, newPath, script, j).error.value));
      if RenameAttempt(fs, oldPath, newPath, script, j).error.None? {
        SuccessReturnsAtOnce(fs, oldPath, newPath, retries, script, 0, j);
      } else {
        OtherErrorIsRethrown(fs, oldPath, newPath, retries, script, 0, j);
      }
      assert run.calls == Renames(oldPath, newPath, j + 1);
      assert CopyCall(oldPath, newPath) !in run.calls;
    }
  }

  /** The fallback: it succeeds exactly when both the copy and the deletion
      of the original succeed; otherwise the surfaced error is the lock error
      of the last rename, never the copy's or the unlink's; a failed deletion
      of the original is followed by an attempt to delete the copy. */
  lemma FallbackOutcome(fs: FileSystem, oldPath: string, newPath: string, err: FsError, script: Script)
    ensures var run := Fallback(fs, oldPath, newPath, err, script);
      && (run.error.None? <==> Copy(fs, oldPath, newPath, script.copy).error.None?
                               && Unlink(fs[newPath := fs[oldPath]], oldPath, script.unlinkOld).error.None? && oldPath in fs)
      && (run.error.Some? ==> run.error == Some(err))
      && run.calls[0] == CopyCall(oldPath, newPath)
      && (|run.calls| == 3 <==>
            Copy(fs, oldPath, newPath, script.copy).error.None?
            && Unlink(fs[newPath := fs[oldPath]], oldPath, script.unlinkOld).error.Some?)
      && (|run.calls| == 3 ==> run.calls[1..] == [UnlinkCall(oldPath), UnlinkCall(newPath)])
  {
  }

  /** A taken target does not survive a fallback whose original cannot be
      unlinked: `copyFile` overwrites it and the cleanup removes it, so the
      file that was there is gone while the original stays. */
  lemma FallbackCanLoseTarget(fs: FileSystem, oldPath: string, newPath: string, err: FsError, script: Script)
    requires oldPath in fs && newPath in fs && oldPath != newPath
    requires script.copy.NoFault? && script.unlinkOld.Fault? && script.unlinkNew.NoFault?
    ensures Fallback(fs, oldPath, newPath, err, script) ==
      Run(Some(err), fs - {newPath}, [CopyCall(oldPath, newPath), UnlinkCall(oldPath), UnlinkCall(newPath)])
  {
    assert fs[newPath := fs[oldPath]] - {newPath} == fs - {newPath};
  }

  /** A resolved `safeRename` with at least one attempt has moved the file:
      nothing remains at the old path, the new path holds its contents and
      every other path is as it was. */
  lemma {:induction false} SuccessMovesFile(fs: FileSystem, oldPath: string, newPath: string, retries: int, script: Script)
    requires retries >= 1 && oldPath != newPath
    requires SafeRenameRun(fs, oldPath, newPath, retries, script).error.None?
    ensures oldPath in fs
    ensures SafeRenameRun(fs, oldPath, newPath, retries, script).fs == Moved(fs, oldPath, newPath)
  {
    FirstUnlocked(fs, oldPath, newPath, script, 0, retries);
    if LockedBetween(fs, oldPath, newPath, script, 0, retries) {
      AllLockedFallsBack(fs, oldPath, newPath, retries, script, 0);
      assert (fs[newPath := fs[oldPath]]) - {oldPath} == Moved(fs, oldPath, newPath);
    } else {
      var j :| 0 <= j < retries && LockedBetween(fs, oldPath, newPath, script, 0, j)
        && !(RenameAttempt(fs, oldPath, newPath, script, j).error.Some? && IsLock(RenameAttempt(fs, oldPath, newPath, script, j).error.value));
      if RenameAttempt(fs, oldPath, newPath, script, j).error.None? {
        SuccessReturnsAtOnce(fs, oldPath, newPath, retries, script, 0, j);
      } else {
        OtherErrorIsRethrown(fs, oldPath, newPath, retries, script, 0, j);
      }
    }
  }

  /** A failed `safeRename` whose clean-up is not itself failed leaves a file
      system in which the new path was free exactly as it found it. */
  lemma {:induction false} FailureLeavesFilesAlone(fs: FileSystem, oldPath: string, newPath: string, retries: int, script: Script)
    requires retries >= 1 && newPath !in fs && script.unlinkNew.NoFault?
    requires SafeRenameRun(fs, oldPath, newPath, retries, script).error.Some?
    ensures SafeRenameRun(fs, oldPath, newPath, retries, script).fs == fs
  {
    FirstUnlocked(fs, oldPath, newPath, script, 0, retries);
    if LockedBetween(fs, oldPath, newPath, script, 0, retries) {
      AllLockedFallsBack(fs, oldPath, newPath, retries, script, 0);
      if Copy(fs, oldPath, newPath, script.copy).error.None? {
        assert fs[newPath := fs[oldPath]] - {newPath} == fs;
      }
    } else {
      var j :| 0 <= j < retries && LockedBetween(fs, oldPath, newPath, script, 0, j)
        && !(RenameAttempt(fs, oldPath, newPath, script, j).error.Some? && IsLock(RenameAttempt(fs, oldPath, newPath, script, j).error.value));
      if RenameAttempt(fs, oldPath, newPath, script, j).error.None? {
        SuccessReturnsAtOnce(fs, oldPath, newPath, retries, script, 0, j);
      } else {
        OtherErrorIsRethrown(fs, oldPath, newPath, retries, script, 0, j);
      }
    }
  }

  /** With no attempts allowed the loop body never runs and `safeRename`
      resolves without touching anything. */
  lemma NoRetriesDoesNothing(fs: FileSystem, oldPath: string, newPath: string, retries: int, script: Script)
    requires retries <= 0
    ensures SafeRenameRun(fs, oldPath, newPath, retries, script) == Run(None, fs, [])
  {
  }

  const Busy := FsError("EBUSY", "EBUSY: resource busy or locked")

  /** Locked twice, then the third plain rename goes through: the file is
      moved, with no copy. */
  lemma LockedTwiceThenMoved(fs: FileSystem, oldPath: string, newPath: string)
    requires oldPath in fs && oldPath != newPath
    ensures var run := SafeRenameRun(fs, oldPath, newPath, 3, Script([Fault(Busy), Fault(Busy)], NoFault, NoFault, NoFault));
      && run.error.None?
      && oldPath !in run.fs && newPath in run.fs && run.fs[newPath] == fs[oldPath]
      && run.calls == Renames(oldPath, newPath, 3)
  {
    var script := Script([Fault(Busy), Fault(Busy)], NoFault, NoFault, NoFault);
    SuccessReturnsAtOnce(fs, oldPath, newPath, 3, script, 0, 2);
  }

  /** Locked on every attempt, the copy succeeds but the original cannot be
      deleted: the copy is removed again and the busy error is thrown, with
      only the original left on disk. */
  lemma StuckOriginalRemovesCopy(fs: FileSystem, oldPath: string, newPath: string)
    requires oldPath in fs && newPath !in fs && oldPath != newPath
    ensures var run := SafeRenameRun(fs, oldPath, newPath, 3, Script([Fault(Busy), Fault(Busy), Fault(Busy)], NoFault, Fault(Busy), NoFault));
      && run.error == Some(Busy)
      && run.fs == fs
      && run.calls == Renames(oldPath, newPath, 3) + [CopyCall(oldPath, newPath), UnlinkCall(oldPath), UnlinkCall(newPath)]
  {
    var script := Script([Fault(Busy), Fault(Busy), Fault(Busy)], NoFault, Fault(Busy), NoFault);
    AllLockedFallsBack(fs, oldPath, newPath, 3, script, 0);
    assert fs[newPath := fs[oldPath]] - {newPath} == fs;
  }
}

=== FILE: settings.dfy ===
/** The renamer's settings record and the settings page's save logic
    (`getDefaultBaseUrl`, `saveSettings` and `updateUI` in the renderer). */
module Settings {
  import opened Results
  import opened JsText

  /** The persisted configuration. `maxChars` is whatever `parseInt` produced,
      so it may be negative; `imageModel`/`textModel` are absent until a save
      in cloud mode writes them. */
  datatype Config = Config(
    mode: string,
    provider: string,
    model: string,
    baseUrl: string,
    apiKey: string,
    caseStyle: string,
    language: string,
    maxChars: int,
    customInstructions: string,
    imageModel: Option<string>,
    textModel: Option<string>)

  const OllamaUrl := "http://127.0.0.1:11434"
  const LmStudioUrl := "http://127.0.0.1:1234"
  const OpenAiUrl := "https://api.openai.com"

  /** The fallback used when the stored `maxChars` does not parse to a non-zero number. */
  const DefaultMaxChars := 25

  /** `getDefaultBaseUrl`: the local servers' and OpenAI's well-known
      addresses, and the empty string for any other provider. */
  function DefaultBaseUrl(provider: string): (u: string)
    ensures u == "" <==> provider !in {"ollama", "lm-studio", "openai"}
    ensures provider == "ollama" ==> u == "http://127.0.0.1:11434"
    ensures provider == "lm-studio" ==> u == "http://127.0.0.1:1234"
    ensures provider == "openai" ==> u == "https://api.openai.com"
  {
    if provider == "ollama" then OllamaUrl
    else if provider == "lm-studio" then LmStudioUrl
    else if provider == "openai" then OpenAiUrl
    else ""
  }

  /** The settings page's inputs, as the strings the DOM holds. */
  datatype SettingsForm = SettingsForm(
    cloudActive: bool,
    provider: string,
    model: string,
    apiKey: string,
    baseUrl: string,
    caseStyle: string,
    language: string,
    maxChars: string,
    customInstructions: string,
    imageModel: string,
    textModel: string)

  /** `parseInt(input) || 25`: `NaN` and `0` are both falsy. */
  function NormalizeMaxChars(input: string): (n: int)
    ensures n != 0
    ensures ParseInt(input).Some? && ParseInt(input).value != 0 ==> n == ParseInt(input).value
    ensures ParseInt(input) == None || ParseInt(input) == Some(0) ==> n == DefaultMaxChars
  {
    match ParseInt(input)
    case Some(v) => if v != 0 then v else DefaultMaxChars
    case None => DefaultMaxChars
  }

  /** `saveSettings`: every field is read from the form; the base URL falls
      back to the provider's default, and the two cloud-only models are
      written only in cloud mode (otherwise the previous values stay). */
  function SaveSettings(prev: Config, form: SettingsForm): (c: Config)
    ensures c.mode == "cloud" || c.mode == "local"
    ensures c.mode == "cloud" <==> form.cloudActive
    ensures form.baseUrl != "" ==> c.baseUrl == form.baseUrl
    ensures form.baseUrl == "" ==> c.baseUrl == DefaultBaseUrl(form.provider)
    ensures c.maxChars == NormalizeMaxChars(form.maxChars)
    ensures form.cloudActive ==> c.imageModel == Some(form.imageModel) && c.textModel == Some(form.textModel)
    ensures !form.cloudActive ==> c.imageModel == prev.imageModel && c.textModel == prev.textModel
    ensures c.provider == form.provider && c.model == form.model && c.apiKey == form.apiKey
    ensures c.caseStyle == form.caseStyle && c.language == form.language
    ensures c.customInstructions == form.customInstructions
  {
    var mode := if form.cloudActive then "cloud" else "local";
    Config(
      mode,
      form.provider,
      form.model,
      if form.baseUrl != "" then form.baseUrl else DefaultBaseUrl(form.provider),
      form.apiKey,
      form.caseStyle,
      form.language,
      NormalizeMaxChars(form.maxChars),
      form.customInstructions,
      if mode == "cloud" then Some(form.imageModel) else prev.imageModel,
      if mode == "cloud" then Some(form.textModel) else prev.textModel)
  }

  /** `updateUI`: the form as it shows a configuration. The two cloud model
      inputs are only overwritten when the configuration has a non-empty
      value; otherwise they keep whatever they showed before. */
  function FormShowing(c: Config, shownImageModel: string, shownTextModel: string): SettingsForm {
    SettingsForm(
      c.mode == "cloud",
      c.provider,
      c.model,
      c.apiKey,
      c.baseUrl,
      c.caseStyle,
      c.language,
      IntToString(c.maxChars),
      c.customInstructions,
      if c.imageModel.Some? && c.imageModel.value != "" then c.imageModel.value else shownImageModel,
      if c.textModel.Some? && c.textModel.value != "" then c.textModel.value else shownTextModel)
  }

  /** A configuration the settings page can show and save back unchanged:
      a known mode, a base URL, a non-zero `maxChars` and, in cloud mode,
      both models chosen. */
  predicate Resaveable(c: Config) {
    && (c.mode == "local" || c.mode == "cloud")
    && c.baseUrl != ""
    && c.maxChars != 0
    && (c.mode == "cloud" ==>
          c.imageModel.Some? && c.imageModel.value != "" && c.textModel.Some? && c.textModel.value != "")
  }

  /** Opening the settings page and pressing save without edits keeps a
      configuration whose mode is known, whose base URL is set and whose
      `maxChars` is non-zero (and, in cloud mode, whose models are set). */
  lemma SaveShownSettingsIsIdentity(c: Config, shownImageModel: string, shownTextModel: string)
    requires Resaveable(c)
    ensures SaveSettings(c, FormShowing(c, shownImageModel, shownTextModel)) == c
  {
    ParseIntOfIntToString(c.maxChars);
  }

  /** Without a base URL, saving stores a non-empty address exactly for the
      three known providers. */
  lemma SavedBaseUrlEmptyOnlyForUnknownProvider(prev: Config, form: SettingsForm)
    ensures SaveSettings(prev, form).baseUrl == "" <==>
      form.baseUrl == "" && form.provider !in {"ollama", "lm-studio", "openai"}
  {
  }
}
